=== FILE: README.md ===
# aur-helper core in Dafny

A model of the decision logic of `aur-helper.py`, an interactive front end
for the Arch Linux package managers `pacman`, `yay` and `paru`. The
model covers:

- how package names are validated;
- how the text printed by `<manager> -Ss` is parsed into package records;
- how an exact match is recognised in search output;
- what the interactive search does with the records it found: de-duplication, the name-to-record table, description truncation and the numbered selection;
- which package-changing shell commands the install, remove and update flows issue, in which order, and what they return;
- how the settings are merged with their defaults and changed by the settings menu.

Everything the program learns from the outside world is a parameter:

- whether a command exits with status 0 (`succeeds: Command -> bool`), or its success and output (`run`);
- the installed-package list;
- the lines typed at a prompt;
- which AUR helpers are on the `PATH`;
- the parsed settings file;
- the result of the fuzzy matcher.

The modules follow the program's structure:

| file | module | what it models |
|---|---|---|
| `wrappers.dfy` | `Wrappers` | `Option` |
| `py_str.dfy` | `PyStr` | the Python string built-ins the program relies on: `strip`, `split()`, `splitlines`, `split('\n')`, `split('/', 1)`, `in`, `startswith`, `endswith`, `lower` |
| `py_int.dfy` | `PyInt` | `int(s)` on decimal text and `str(n)` |
| `package_name.dfy` | `PackageName` | `validate_package_name` |
| `search_parser.dfy` | `SearchParser` | the parsing loop of `search_packages` |
| `resolve.dfy` | `Resolve` | `search_similar_interactive` after its search |
| `exact_match.dfy` | `ExactMatch` | `check_package_exists` |
| `commands.dfy` | `Commands` | the manager table and the command strings |
| `operations.dfy` | `Operations` | `get_installed_packages`, `install_package`, `remove_package`, `update_system` |
| `settings.dfy` | `Settings` | `Config` and `show_config_menu` |

Commands are kept as a datatype of their parts (`sudo`, manager, operation,
`--noconfirm`) and rendered to text. `Commands.RenderText` and its
callers show that the rendered text is exactly what the program's
f-strings produce. `Commands.ParseRender` shows that the text parses back
to the parts for every command whose package argument is a single
whitespace-free word not starting with `-` (`Commands.ArgsOk`). For such
commands, "the flow issued command X" is the same statement whether it is
read on the text or on the parts. `PackageName.ValidatePackageName`
alone does not give this: it accepts `"abc\n"`, whose command text would
split into different words. The install and remove flows issue a command
only for a name that passes `validate_package_name` (lines 372-374 and
414-416). Such a name without a trailing newline is a single word of this
kind (`PackageName.ValidNameIsWord`). A name with a trailing newline
does not reach these flows: the program's package names are stripped
input (lines 753-764) or tokens of `split()` (lines 291-297, reached
through line 358), and neither holds a newline. Names that are not single
words, such as the stripped input `fire fox` or the empty name that the
header `core/ 1.0` yields, are rejected by the validation before any
command is built.

Some behaviours are modelled as the code has them, not as an idealised
reading would have them:

- `search_packages` strips each line before its "not indented" test. An indented line whose first token contains `/` is therefore read as a header (`SearchParser.IndentedHeader`).
- The `"unknown"` version fallback can never be taken.
- Only a leading space, never a tab, marks a description line (`SearchParser.TabIsNoDescription`).
- The name pattern's `$` also matches before one final newline, so `"abc\n"` is accepted (`PackageName.NameExamples`).
- `remove_package` ignores its `manager` argument.
- For `purge`, its result is the removal's success whatever the cache clean does.

## Model

| member | source | states |
|---|---|---|
| PackageName.ValidatePackageName | aur-helper.py:178-182 | the regular-expression check accepts a name iff it is an ASCII letter or digit followed by characters of `[a-zA-Z0-9@._+-]`, optionally followed by one final newline, and at most 255 characters long |
| PackageName.NameExamples | aur-helper.py:181-182 | `firefox`, `lib32-glibc`, a 255-character name and `abc\n` are accepted; `-bad`, the empty name, `fire fox`, a 256-character name and `abc\n\n` are rejected |
| PackageName.ValidNameIsWord | aur-helper.py:181-182 | an accepted name without the trailing newline is a single shell word without `/` that does not start with `-`, so it can sit in a command line as one argument |
| PyStr.Strip | aur-helper.py:287 | `strip()` yields a slice of its input with no whitespace at either end, and everything outside that slice is whitespace; text that is all whitespace strips to `""`, and text with no whitespace at either end is unchanged |
| PyStr.ContainsIff | aur-helper.py:272 | `sub in s`, computed by scanning the start positions, holds iff some window of `s` equals `sub` |
| PyStr.AsciiLower | aur-helper.py:381 | `lower()` keeps the length and lowers each character on its own: `A`-`Z` become `a`-`z` and every other character stays |
| PyStr.LowerPointwise | aur-helper.py:381 | any string that lowers a text character by character is that text's `lower()` |
| PyStr.StripLower | aur-helper.py:381 | `lower().strip()` equals `strip().lower()` |
| PyStr.Split | aur-helper.py:291 | `split()` yields non-empty tokens that hold no whitespace |
| PyStr.SplitLines | aur-helper.py:283 | `splitlines()` yields pieces without line breaks, no more of them than the text has characters |
| PyStr.SplitOn | aur-helper.py:188 | `split('\n')` yields at least one piece, and no piece holds the separator |
| PyStr.SplitJoin | aur-helper.py:291 | `split()` of whitespace-free words joined by single spaces gives back the words |
| PyStr.SplitStrip | aur-helper.py:287-291 | splitting a stripped line gives the same tokens as splitting the raw line |
| PyStr.SplitLinesJoin | aur-helper.py:283 | `splitlines()` of lines joined by `\n` gives back the lines, when none holds a line break and the last is non-empty |
| PyStr.JoinSplitOn | aur-helper.py:188 | joining the pieces of `split('\n')` with `\n` gives back the text |
| PyStr.SplitOnJoin | aur-helper.py:188 | `split('\n')` of newline-free pieces joined by `\n` gives back the pieces |
| PyStr.SplitOnceOf | aur-helper.py:297 | `split("/", 1)` cuts at the first `/`: a text with no `/` before it is recovered as the first part and all the rest as the second |
| PyInt.IntStrip | aur-helper.py:693 | the text `int()` reads is its argument without the runs of `int()` whitespace at either end: the ASCII characters tab, newline, vertical tab, form feed, carriage return and space, and non-ASCII whitespace, but not the separators U+001C-U+001F; text with no such character at either end is unchanged |
| PyInt.IntStripOfStripped | aur-helper.py:352-356 | text that `strip()` has already trimmed is left unchanged by `int()`'s trimming, so on the stripped answer of line 356 the two agree |
| PyInt.SeparatorIsNoIntSpace | aur-helper.py:693 | `"\x1c5"` strips to `"5"`, yet `int("\x1c5")` raises `ValueError` |
| PyInt.ParseInt | aur-helper.py:693 | `int()` succeeds iff the text without its `int()` whitespace, after one optional leading sign, is a run of digits in which single underscores may sit between digits; such text starts with a sign or a digit, ends in a digit and holds only digits and underscores after its first character; a negative result needs a leading `-` |
| PyInt.ParseDigits | aur-helper.py:693 | text that `int()` trims to plain digits reads as the number those digits denote |
| PyInt.ParseSigned | aur-helper.py:356 | `-` in front of the decimal text of `n` reads as `-n`, and `+` in front of it as `n` |
| PyInt.ParseUnderscored | aur-helper.py:356 | an underscore between two runs of digits is ignored: `a_b` reads as the number the digits of `a` followed by those of `b` denote, so `1_0` reads as 10 |
| PyInt.ParseNatToDecimal | aur-helper.py:356 | `int()` of the decimal text of a natural number gives the number back |
| PyInt.ParseRejectsLetter | aur-helper.py:356 | `int()` raises `ValueError` when a character other than a digit or an underscore follows the first character of the text without its `int()` whitespace |
| SearchParser.HeaderOf | aur-helper.py:288-297 | a line read as a header has at least two tokens; the repo and name, joined by `/`, are the first token; the repo holds no `/`; the version is the second token |
| SearchParser.HeaderOfLine | aur-helper.py:287-292 | a raw line is read as a header iff its first token contains `/` and a second token follows, whatever its indentation |
| SearchParser.RecordOfLine | aur-helper.py:287-311 | raw line `i` yields a record iff its first token contains `/` and a second token follows; the record's repo and name, joined by `/`, are the first token, the repo holds no `/`, the version is the second token, and the description is the next raw line stripped when that line begins with a space, `""` otherwise |
| SearchParser.DescriptionOfLines | aur-helper.py:300-302 | the description is the next raw line, stripped, when it begins with a space, and `""` otherwise; it never has whitespace at either end |
| SearchParser.ParseUpTo | aur-helper.py:286-312 | the scan yields at most one record per line |
| SearchParser.ParseSearchLines | aur-helper.py:284-312 | the `while` loop appends exactly the records of the scan, in line order |
| SearchParser.SearchPackages | aur-helper.py:278-283 | a failed search or empty output yields no records; otherwise there are no more records than characters of output |
| SearchParser.SearchPackagesOfLines | aur-helper.py:278-312 | a successful search whose output is a list of lines joined by `\n`, none holding a line break and the last non-empty, yields exactly the records the scan finds in those lines |
| SearchParser.ParseFollowsHeaders | aur-helper.py:286-312 | there is one record per header line, in input order: the `k`-th record is the record of the `k`-th header line |
| SearchParser.IndentedHeader | aur-helper.py:287-288 | indenting a line does not change whether it is read as a header |
| SearchParser.TabIsNoDescription | aur-helper.py:301-302 | a next line that starts with a tab gives no description |
| SearchParser.HeaderOfWords | aur-helper.py:291-297 | a line `repo/name version` is read with exactly those three fields |
| SearchParser.HeaderDescriptionHeader | aur-helper.py:286-312 | the layout header, indented description, header yields two records; the description belongs to the first, and the last record, with no line after it, has `""` |
| Resolve.Dedupe | aur-helper.py:326 | `dict.fromkeys` keeps every name exactly once, with the same set of names as its input |
| Resolve.DedupeFirstSeen | aur-helper.py:326 | the distinct names come out in order of first appearance |
| Resolve.Lookup | aur-helper.py:339 | the lookup table has an entry for exactly the names of the records, and each maps to the last record with that name |
| Resolve.LookupLastWins | aur-helper.py:339 | a record whose name does not appear again later is the one the table holds |
| Resolve.LookupCoversNames | aur-helper.py:345-346 | every distinct name has an entry in the table |
| Resolve.Truncate | aur-helper.py:347 | a description of at most 40 characters is shown whole; a longer one is shown as its first 40 characters followed by `...` |
| Resolve.Select | aur-helper.py:351-365 | the answer is stripped; `0` or `cancel` in any casing cancels; otherwise text `int()` rejects is not a number, and a number `n` from 1 to the number of matches chooses the `n`-th match; a chosen name is one of the offered matches |
| Resolve.Choose | aur-helper.py:352-365 | on the stripped answer, `0` or `cancel` in any casing cancels and anything else is read as a number; a chosen name is one of the matches, and an out-of-range number is below 1 or above the number of matches |
| Resolve.ChooseNumber | aur-helper.py:356-365 | no number means not a number; a number `n` from 1 to the number of matches chooses the `n`-th match; any other number is out of range; a number never cancels |
| Resolve.SelectShownNumber | aur-helper.py:345-358 | typing the number shown beside a match selects that match |
| Resolve.SearchSimilar | aur-helper.py:320-369 | no records or no close matches gives `None`; a returned name is one of the close matches; otherwise a name is returned iff the answer selects one, and it is the selected one |
| Resolve.SelectedHasRecord | aur-helper.py:339-361 | when the matches are distinct names taken from the records, a selected name has a record carrying that name |
| ExactMatch.SearchPatterns | aur-helper.py:264 | three patterns are tried, and each contains the package name |
| ExactMatch.AnyLineMatches | aur-helper.py:270-273 | the output matches iff some line contains `/name ` or ends, once stripped, in `/name` |
| ExactMatch.CheckPackageExists | aur-helper.py:264-275 | the searches run in pattern order and stop at the first hit; every search before the last one issued missed; a miss means all three were issued |
| ExactMatch.SearchInOrder | aur-helper.py:266-275 | the searches issued are a prefix of the list, run until one finds the package; the result is whether the last one issued found it; every earlier one missed, and a miss means the whole list was issued |
| ExactMatch.ScanAnswer | aur-helper.py:268-274 | an answer is scanned only when its command succeeded with non-empty output, and then reports whether some line passes the line test |
| ExactMatch.ScanLines | aur-helper.py:270-273 | the inner loop reports a hit iff some line passes the line test |
| ExactMatch.FoundIffSomeHit | aur-helper.py:266-275 | the package is reported to exist iff one of the three searches succeeds with non-empty output that has a matching line |
| ExactMatch.MatchHoldsName | aur-helper.py:272 | a line that passes the line test holds the package name right after a `/` |
| ExactMatch.HeaderLineMatches | aur-helper.py:272 | on a header line `repo/name version` the line test holds iff `name` is the package, so `core/firefox-esr 115` does not match `firefox` |
| Commands.ParseManager | aur-helper.py:131-135 | a recognised manager key is the name of the manager it selects |
| Commands.RenderText | aur-helper.py:389-395 | a command's text is `sudo ` when requested, then the manager, a space and the operation, then ` --noconfirm` when requested |
| Commands.RenderNoConfirm | aur-helper.py:518-519 | appending ` --noconfirm` to a command text is the same as setting the command's confirmation flag |
| Commands.ParseRender | aur-helper.py:480-516 | the text of a command whose package argument is a single word not starting with `-` parses back to the command |
| Commands.RenderInjective | aur-helper.py:480-516 | two such commands with the same text are the same command |
| Operations.InstalledPackages | aur-helper.py:184-189 | a failed query or empty output gives no names; otherwise the names, joined by `\n`, are the output, and no name holds a newline |
| Operations.InstalledPackagesOf | aur-helper.py:188 | names printed one per line are read back unchanged |
| Operations.ConfirmsCaseless | aur-helper.py:380-383 | the reinstall prompt is confirmed iff the stripped answer, in any casing, is `y` or `yes` |
| Operations.InstallPackage | aur-helper.py:371-410 | at most one package-changing command is issued, the install command; it is issued iff the name is valid and the package is not installed, auto-confirm is on or the reply is `y`/`yes`; the result is that command's success |
| Operations.InstallText | aur-helper.py:389-395 | the install command text is `sudo ` for pacman only, then `{manager} -S {package}`, then ` --noconfirm` under auto-confirm |
| Operations.ParseRemoveMode | aur-helper.py:433 | the accepted remove modes are exactly `simple`, `full` and `purge` |
| Operations.RemovePackage | aur-helper.py:412-463 | a package-changing command is issued iff the name is valid, the package installed and the mode known; the first is the pacman remove command; the result is that command's success; the cache clean follows iff the removal succeeded in `purge` mode; every command is a sudo pacman command |
| Operations.RemoveText | aur-helper.py:434-437 | the remove command text is `sudo pacman -Rns {package}`, with ` --noconfirm` under auto-confirm |
| Operations.CleanText | aur-helper.py:445-448 | the cache-clean command text is `sudo pacman -Sc`, with ` --noconfirm` under auto-confirm |
| Operations.ParseUpdateMode | aur-helper.py:480-516 | `standard`, `full`, `refresh` and `force` each select their own mode, and no other text is accepted |
| Operations.BasePlan | aur-helper.py:478-516 | a plan has one or two commands, each under sudo iff it runs pacman; `standard`/`full` use `-Syu`, `refresh`/`force` `-Syyu`; `full` from pacman picks yay, else paru, else pacman; `force` from pacman runs pacman's `-Syyu` first; `standard`, `refresh`, and every mode from yay or paru run the given manager; a second command exists iff `force` from pacman with an AUR helper present, and it is that helper's `-Syu`, yay preferred |
| Operations.Confirmed | aur-helper.py:518-519 | under auto-confirm every planned command text gains ` --noconfirm`, and nothing else changes |
| Operations.UpdatePlan | aur-helper.py:478-519 | an unknown mode has no plan; a known mode's plan is the base plan of that mode with every command's confirmation flag set to the auto-confirm setting; it has one or two commands, each under sudo iff it runs pacman |
| Operations.ForceFromPacmanText | aur-helper.py:504-519 | `force` from pacman issues `sudo pacman -Syyu`, then `yay -Syu` when yay is present, else `paru -Syu` when paru is, with ` --noconfirm` on each under auto-confirm; there is a second command iff a helper is present |
| Operations.RunUntilFailure | aur-helper.py:521-532 | the commands issued are a prefix of the plan; the run succeeds iff every planned command succeeds, and then the whole plan was issued; every issued command but the last succeeded; after a failure the last one issued is the failing one |
| Operations.RunUntilFailureAt | aur-helper.py:521-532 | when the first failure is at position `k`, exactly the first `k + 1` commands are issued; with no failure the whole plan is |
| Operations.ExecutePlan | aur-helper.py:521-532 | the loop with its `break` issues the same commands and reports the same success as the run-until-failure definition |
| Operations.UpdateSystem | aur-helper.py:465-551 | an unknown mode fails without issuing a package-changing command; a known mode issues the commands of its plan in order up to the first failure, and the result is true iff every planned command succeeds |
| Settings.LoadConfig | aur-helper.py:77-86 | the loaded settings hold the default keys and the file's keys, and the file's value wins where both have one |
| Settings.SaveLoad | aur-helper.py:77-92 | settings that hold every default key load back unchanged from the file they are saved to |
| Settings.LoadKeepsKeys | aur-helper.py:77-86 | loaded settings hold every default key, and loading them again changes nothing |
| Settings.Toggle | aur-helper.py:682-684 | a toggled setting becomes a boolean with the opposite truth value, and every other setting is unchanged |
| Settings.ToggleTwice | aur-helper.py:682-684 | toggling twice restores the truth value, and a boolean setting itself |
| Settings.MenuStep | aur-helper.py:674-701 | entry 1 reads the answer as a manager and entry 5 as a result count; entries 2, 3, 4 and 6 toggle `auto_confirm`, `show_progress`, `backup_before_operations` and `colors_enabled`; any other entry changes nothing |
| Settings.SetManager | aur-helper.py:676-680 | when the answer, stripped and lowered, names a supported manager, `default_manager` becomes that name; otherwise nothing changes; no other setting changes |
| Settings.SetMaxResults | aur-helper.py:691-697 | when `int()` reads the raw answer as a number from 1 to 50, `max_search_results` becomes that number; otherwise nothing changes; no other setting changes |
| Settings.SetMaxResultsSeparator | aur-helper.py:693-697 | the raw answer `"\x1c5"` changes nothing, because `int()` does not skip U+001C |
| Settings.MenuStepChanges | aur-helper.py:674-700 | the default manager changes only through entry 1 and only to a supported manager; the result count changes only through entry 5 and only to a number from 1 to 50; settings the menu does not offer are untouched |
| Settings.ToggleChanges | aur-helper.py:682-700 | the four switch entries leave the default manager, the result count and every setting the menu does not offer as they were |
| Settings.DefaultsSane | aur-helper.py:66-74 | the defaults name a supported manager, a result count within 1-50 and boolean switches |
| Settings.MenuStepSane | aur-helper.py:674-701 | whatever the entry and the answer, a menu step keeps such settings so |
| Settings.RunMenu | aur-helper.py:660-703 | whatever lines are typed, the menu keeps such settings so, and settings the menu does not offer keep their presence and value |

## Left out

- `run_command` (lines 139-172): the subprocess, its 300-second timeout and its exception handling are process I/O. A command's outcome is a parameter: `succeeds`, or `run` for searches, whose output is what `run_command` returns after its own `strip()`.
- `Logger` and the writes of `save_config` (lines 35-59, 88-92): these are file I/O. A settings file is modelled by the map it holds. A file that is missing, unreadable or not a JSON object is the `None` case of `LoadConfig`.
- The read-only queries: `Operations.Run` records only the package-changing commands a flow issues. Not recorded are the `pacman -Qq` of `get_installed_packages` (line 186), which install and remove run first and whose answer is the `installed` parameter; `backup_system_state` (lines 191-212), which `install_package` (line 386), `remove_package` (line 423), `update_system` (line 467, before the mode is checked) and `remove_orphaned_packages` (line 581) call, and which, when `backup_before_operations` is on, runs `pacman -Qq` (line 203) and writes its output to a file; and the `pacman -Qtdq` that follows a successful update (line 538).
- `get_close_matches` (lines 327-332): a library scorer that works on floating point. The matcher's result is a parameter. `Resolve.CloseMatchShape` states the shape assumed of it: at most `n` distinct candidates.
- `Colors` (lines 21-32) and `ProgressIndicator` (lines 104-125): terminal output only.
- `install_helper`, `is_installed` and `shutil.which` (lines 174-176, 214-258): these run programs. Which AUR helpers are installed is a parameter of the update flow.
- `show_package_manager_menu` and `show_action_menu` (lines 602-658), `show_system_info` (lines 706-728), the `run` loop (lines 729-816) and `main` (lines 818-828): user interface. Of the menus only `show_config_menu` (lines 660-703) is modelled.
- The orphan clean-up after a successful update (lines 536-545) and `remove_orphaned_packages` (lines 553-600): it does not affect `update_system`'s result. It is not modelled.
- Lines 599-600 are unreachable.
- All printed messages, and the order of the listing columns.
- `KeyboardInterrupt` and end of input at prompts: the menu model ends when its input lines run out.
- `PyStr.Strip`, `PyStr.Split`: the whitespace set is the one `str.isspace` uses for the characters modelled. Other Unicode whitespace is not distinguished.
- `PyInt.ParseInt`: only ASCII decimal digits are modelled. Python's `int()` also accepts other Unicode decimal digits. The model also has no digit limit: from Python 3.11, `int()` raises `ValueError` for text of more than 4300 digits (`sys.get_int_max_str_digits`) by default, where the model returns a number. `PyInt.ParseDigits`, `PyInt.ParseNatToDecimal`, `PyInt.ParseSigned` and `PyInt.ParseUnderscored` therefore claim more than such an interpreter gives for longer texts.
- `PyStr.AsciiLower`: only ASCII letters are lowered. This is exact for the comparisons the program makes, against `cancel`, `y`, `yes` and the manager names.
- `Settings.Get`: the `default` argument of `Config.get` is not modelled. The program reads only keys that the defaults always supply, or tests the value for truth.
- `Settings.Value`: JSON arrays and objects are kept only as their size, which is all a truth test reads.
- `search_cutoff` is kept as a `real`. It is only passed to the fuzzy matcher, which is not modelled. `json.load` also accepts `NaN` and `Infinity`, which a `real` cannot hold; such a value would only reach the matcher.

=== FILE: commands.dfy ===
/** The package managers the helper drives (aur-helper.py:133-135) and the
    shell commands it builds for them. A command is kept as its parts and
    rendered to exactly the text the f-strings of the install, remove and
    update flows produce; parsing the text back recovers the parts, so no
    two different commands share a text. */
module Commands {
  import opened Wrappers
  import opened PyStr

  datatype Manager = Pacman | Yay | Paru

  /** The key of `supported_managers`, which is also the program name. */
  function ManagerName(m: Manager): string {
    match m
    case Pacman => "pacman"
    case Yay => "yay"
    case Paru => "paru"
  }

  /** `needs_sudo` of the manager table: only pacman runs under sudo. */
  predicate NeedsSudo(m: Manager) {
    m == Pacman
  }

  /** Membership in `supported_managers`, by key. */
  function ParseManager(s: string): (r: Option<Manager>)
    ensures r.Some? ==> ManagerName(r.value) == s
  {
    if s == "pacman" then Some(Pacman)
    else if s == "yay" then Some(Yay)
    else if s == "paru" then Some(Paru)
    else None
  }

  /** Every manager's name is recognised as that manager. */
  lemma ParseManagerName(m: Manager)
    ensures ParseManager(ManagerName(m)) == Some(m)
  {
  }

  /** The pacman operations the helper issues. */
  datatype Operation =
    | Sync(package: string)             // -S <package>
    | Upgrade                           // -Syu
    | RefreshUpgrade                    // -Syyu
    | RemoveRecursive(package: string)  // -Rns <package>
    | CleanCache                        // -Sc

  /** One shell command: an optional `sudo`, the manager, the operation and
      an optional trailing `--noconfirm`. */
  datatype Command = Command(sudo: bool, manager: Manager, op: Operation, noConfirm: bool)

  function OperationWords(op: Operation): seq<string> {
    match op
    case Sync(p) => ["-S", p]
    case Upgrade => ["-Syu"]
    case RefreshUpgrade => ["-Syyu"]
    case RemoveRecursive(p) => ["-Rns", p]
    case CleanCache => ["-Sc"]
  }

  /** The space-separated words of the command text. */
  function Words(c: Command): (ws: seq<string>)
    ensures |ws| >= 2
  {
    (if c.sudo then ["sudo"] else []) + [ManagerName(c.manager)] + OperationWords(c.op)
      + (if c.noConfirm then ["--noconfirm"] else [])
  }

  /** The command text handed to the shell. */
  function Render(c: Command): string {
    Join(Words(c), " ")
  }

  /** The operation as the f-strings spell it. */
  function OperationText(op: Operation): string {
    match op
    case Sync(p) => "-S " + p
    case Upgrade => "-Syu"
    case RefreshUpgrade => "-Syyu"
    case RemoveRecursive(p) => "-Rns " + p
    case CleanCache => "-Sc"
  }

  /** The command text is the f-string `"sudo {manager} {operation}"`, the
      `sudo ` present exactly when requested, with `" --noconfirm"` appended
      when requested. */
  lemma RenderText(c: Command)
    ensures Render(c) == (if c.sudo then "sudo " else "") + ManagerName(c.manager) + " "
                         + OperationText(c.op) + (if c.noConfirm then " --noconfirm" else "")
  {
    var base := Command(false, c.manager, c.op, false);
    RenderBase(c.manager, c.op);
    var mid := c.(noConfirm := false);
    if c.sudo {
      RenderSudo(base);
      assert mid == base.(sudo := true);
    } else {
      assert mid == base;
    }
    if c.noConfirm {
      RenderNoConfirm(mid);
      assert c == mid.(noConfirm := true);
    } else {
      assert c == mid;
    }
  }

  /** The plain command text: manager, a space, the operation. */
  lemma RenderBase(m: Manager, op: Operation)
    ensures Render(Command(false, m, op, false)) == ManagerName(m) + " " + OperationText(op)
  {
    var ws := Words(Command(false, m, op, false));
    var name := ManagerName(m);
    match op {
      case Sync(p) =>
        assert ws == [name, "-S", p];
        JoinThree(name, "-S", p, " ");
      case RemoveRecursive(p) =>
        assert ws == [name, "-Rns", p];
        JoinThree(name, "-Rns", p, " ");
      case _ =>
        var flag := OperationWords(op)[0];
        assert ws == [name, flag];
        JoinTwo(name, flag, " ");
    }
  }

  lemma JoinTwo(a: string, b: string, sep: string)
    ensures Join([a, b], sep) == a + sep + b
  {
    assert [a, b][1..] == [b];
  }

  lemma JoinThree(a: string, b: string, c: string, sep: string)
    ensures Join([a, b, c], sep) == a + sep + (b + sep + c)
  {
    assert [a, b, c][1..] == [b, c];
    JoinTwo(b, c, sep);
  }

  /** Requesting `sudo` puts `"sudo "` in front of the text. */
  lemma RenderSudo(c: Command)
    requires !c.sudo
    ensures Render(c.(sudo := true)) == "sudo " + Render(c)
  {
    assert Words(c.(sudo := true)) == ["sudo"] + Words(c);
    JoinCons("sudo", Words(c), " ");
  }

  /** Appending `" --noconfirm"` to a command text, as the update flow does
      to every planned command, is the same as setting the flag. */
  lemma RenderNoConfirm(c: Command)
    requires !c.noConfirm
    ensures Render(c.(noConfirm := true)) == Render(c) + " --noconfirm"
  {
    var ws := Words(c);
    assert Words(c.(noConfirm := true)) == ws + ["--noconfirm"];
    JoinSnoc(ws, "--noconfirm", " ");
  }

  /** `Join` of a list grown at the end. */
  lemma {:induction false} JoinSnoc(ws: seq<string>, w: string, sep: string)
    requires ws != []
    ensures Join(ws + [w], sep) == Join(ws, sep) + sep + w
    decreases |ws|
  {
    if |ws| == 1 {
      assert ws + [w] == [ws[0], w];
      assert [ws[0], w][1..] == [w];
    } else {
      var tl := ws[1..];
      assert (ws + [w])[1..] == tl + [w];
      JoinSnoc(tl, w, sep);
    }
  }

  /** Package arguments the commands carry: one word that cannot be taken
      for the `--noconfirm` flag. Valid package names are such words. */
  predicate PackageArg(p: string) {
    IsWord(p) && p[0] != '-'
  }

  predicate OperationArgsOk(op: Operation) {
    match op
    case Sync(p) => PackageArg(p)
    case RemoveRecursive(p) => PackageArg(p)
    case _ => true
  }

  predicate ArgsOk(c: Command) {
    OperationArgsOk(c.op)
  }

  function ParseOperation(ws: seq<string>): (r: Option<Operation>)
    ensures r.Some? ==> OperationWords(r.value) == ws
  {
    if ws == ["-Syu"] then Some(Upgrade)
    else if ws == ["-Syyu"] then Some(RefreshUpgrade)
    else if ws == ["-Sc"] then Some(CleanCache)
    else if |ws| == 2 && ws[0] == "-S" then Some(Sync(ws[1]))
    else if |ws| == 2 && ws[0] == "-Rns" then Some(RemoveRecursive(ws[1]))
    else None
  }

  /** Reads a command back from its words. */
  function ParseWords(ws: seq<string>): Option<Command> {
    var sudo := |ws| > 0 && ws[0] == "sudo";
    var ws1 := if sudo then ws[1..] else ws;
    var noConfirm := |ws1| > 0 && ws1[|ws1| - 1] == "--noconfirm";
    var ws2 := if noConfirm then ws1[..|ws1| - 1] else ws1;
    if |ws2| < 2 then None
    else
      match ParseManager(ws2[0])
      case None => None
      case Some(m) =>
        match ParseOperation(ws2[1..])
        case None => None
        case Some(op) => Some(Command(sudo, m, op, noConfirm))
  }

  /** Reads a command back from its text. */
  function ParseCommand(s: string): Option<Command> {
    ParseWords(Split(s))
  }

  lemma ParseOperationWords(op: Operation)
    requires OperationArgsOk(op)
    ensures ParseOperation(OperationWords(op)) == Some(op)
  {
  }

  /** Words of a command, read back, give the command. */
  lemma ParseWordsOf(c: Command)
    requires ArgsOk(c)
    ensures ParseWords(Words(c)) == Some(c)
  {
    var core := [ManagerName(c.manager)] + OperationWords(c.op);
    assert Words(c) == (if c.sudo then ["sudo"] else []) + core + (if c.noConfirm then ["--noconfirm"] else []);
    assert core[|core| - 1] != "--noconfirm" by {
      match c.op
      case Sync(p) => assert p[0] != '-' && "--noconfirm"[0] == '-';
      case RemoveRecursive(p) => assert p[0] != '-' && "--noconfirm"[0] == '-';
      case _ =>
    }
    ParseManagerName(c.manager);
    assert core[1..] == OperationWords(c.op);
    ParseOperationWords(c.op);
    ParseWordsParts(c.sudo, core, c.noConfirm, c.manager, c.op);
  }

  /** The optional words around the manager and operation are recognised
      by their position. */
  lemma ParseWordsParts(sudo: bool, core: seq<string>, noConfirm: bool, m: Manager, op: Operation)
    requires |core| >= 2 && core[|core| - 1] != "--noconfirm"
    requires ParseManager(core[0]) == Some(m) && ParseOperation(core[1..]) == Some(op)
    ensures ParseWords((if sudo then ["sudo"] else []) + core + (if noConfirm then ["--noconfirm"] else []))
            == Some(Command(sudo, m, op, noConfirm))
  {
    var tail := core + (if noConfirm then ["--noconfirm"] else []);
    var ws := (if sudo then ["sudo"] else []) + tail;
    assert ws == (if sudo then ["sudo"] else []) + core + (if noConfirm then ["--noconfirm"] else []);
    assert core[0] != "sudo";
    if sudo {
      assert ws[0] == "sudo" && ws[1..] == tail;
    } else {
      assert ws == tail && ws[0] == core[0];
    }
    if noConfirm {
      assert tail[|tail| - 1] == "--noconfirm" && tail[..|tail| - 1] == core;
    } else {
      assert tail == core;
    }
  }

  /** Every word of a command with proper arguments is a word for `split()`. */
  lemma WordsAreWords(c: Command)
    requires ArgsOk(c)
    ensures AllWords(Words(c))
  {
    FlagsAreWords();
    assert IsWord(ManagerName(c.manager));
  }

  lemma FlagsAreWords()
    ensures IsWord("sudo") && IsWord("--noconfirm")
    ensures IsWord("-S") && IsWord("-Syu") && IsWord("-Syyu") && IsWord("-Rns") && IsWord("-Sc")
  {
  }

  /** Parsing the text of a command gives the command back. */
  lemma ParseRender(c: Command)
    requires ArgsOk(c)
    ensures ParseCommand(Render(c)) == Some(c)
  {
    WordsAreWords(c);
    SplitJoin(Words(c));
    ParseWordsOf(c);
  }

  /** Different commands have different texts. */
  lemma RenderInjective(c1: Command, c2: Command)
    requires ArgsOk(c1) && ArgsOk(c2)
    requires Render(c1) == Render(c2)
    ensures c1 == c2
  {
    ParseRender(c1);
    ParseRender(c2);
  }
}

=== FILE: exact_match.dfy ===
/** `check_package_exists` (aur-helper.py:260-274): up to three searches
    with increasingly loose patterns, each answered by the package
    manager; the package exists when some line of a successful, non-empty
    answer names it exactly. The manager is a parameter `run` that maps a
    command to its success flag and output. */
module ExactMatch {
  import opened PyStr
  import opened SearchParser

  /** The regular expressions handed to `-Ss`, in the order they are tried. */
  function SearchPatterns(package: string): (r: seq<string>)
    ensures |r| == 3
    ensures forall k :: 0 <= k < 3 ==> Contains(r[k], package)
  {
    var r := ["^" + package + "$", "^" + package + " ", "/" + package + " "];
    OccursContains(r[0], package, 1);
    OccursContains(r[1], package, 1);
    OccursContains(r[2], package, 1);
    r
  }

  /** `f"{manager} -Ss '{pattern}'"` */
  function SearchCommand(manager: string, pattern: string): string {
    manager + " -Ss '" + pattern + "'"
  }

  /** The line test of line 272. */
  predicate LineMatches(line: string, package: string) {
    Contains(line, "/" + package + " ") || EndsWith(Strip(line), "/" + package)
  }

  /** Either way, a line that passes holds the package name right after a
      `/`. */
  lemma MatchHoldsName(line: string, package: string)
    ensures LineMatches(line, package) ==> Contains(line, "/" + package)
  {
    var x := "/" + package;
    if Contains(line, x + " ") {
      var i := ContainsOccurs(line, x + " ");
      assert line[i..i + |x|] == (x + " ")[..|x|] == x;
      OccursContains(line, x, i);
    } else if EndsWith(Strip(line), x) {
      var r := Strip(line);
      var a := LeadEnd(line);
      var j := a + |r| - |x|;
      assert line[j..j + |x|] == r[|r| - |x|..];
      OccursContains(line, x, j);
    }
  }

  /** Some line of the answer passes the line test. */
  function AnyLineMatches(lines: seq<string>, package: string): (b: bool)
    ensures b <==> exists i :: 0 <= i < |lines| && LineMatches(lines[i], package)
  {
    if lines == [] then false
    else LineMatches(lines[0], package) || AnyLineMatches(lines[1..], package)
  }

  /** The answer to `command` names the package on some line. */
  predicate Hits(run: string -> (bool, string), command: string, package: string) {
    AnswerHits(run(command), package)
  }

  /** A successful, non-empty answer with a matching line. */
  predicate AnswerHits(answer: (bool, string), package: string) {
    answer.0 && answer.1 != [] && AnyLineMatches(SplitLines(answer.1), package)
  }

  /** The search commands in the order they are issued. */
  function Queries(manager: string, package: string): (r: seq<string>)
    ensures |r| == 3
  {
    var ps := SearchPatterns(package);
    [SearchCommand(manager, ps[0]), SearchCommand(manager, ps[1]), SearchCommand(manager, ps[2])]
  }

  /** The search for pattern number `k` finds the package. */
  predicate PatternHits(manager: string, package: string, run: string -> (bool, string), k: nat)
    requires k < 3
  {
    Hits(run, Queries(manager, package)[k], package)
  }

  /** The loop nest of lines 266-274, with the commands it issues. The
      searches run in order and stop at the first one that finds the
      package; the answer is whether some search found it. */
  method CheckPackageExists(manager: string, package: string, run: string -> (bool, string))
    returns (found: bool, issued: seq<string>)
    ensures 1 <= |issued| <= 3 && issued == Queries(manager, package)[..|issued|]
    ensures found <==> PatternHits(manager, package, run, |issued| - 1)
    ensures forall j :: 0 <= j < |issued| - 1 ==> !PatternHits(manager, package, run, j)
    ensures !found ==> |issued| == 3
  {
    found, issued := SearchInOrder(Queries(manager, package), package, run);
  }

  /** The outer loop over any list of search commands: they run in order
      until one finds the package. */
  method SearchInOrder(queries: seq<string>, package: string, run: string -> (bool, string))
    returns (found: bool, issued: seq<string>)
    ensures |issued| <= |queries| && issued == queries[..|issued|]
    ensures found <==> issued != [] && Hits(run, issued[|issued| - 1], package)
    ensures forall j :: 0 <= j < |issued| - 1 ==> !Hits(run, queries[j], package)
    ensures !found ==> |issued| == |queries|
  {
    issued := [];
    for k := 0 to |queries|
      invariant issued == queries[..k]
      invariant forall j :: 0 <= j < k ==> !Hits(run, queries[j], package)
    {
      issued := issued + [queries[k]];
      found := ScanAnswer(run(queries[k]), package);
      if found {
        return;
      }
    }
    found := false;
  }

  /** Lines 268-274 for one answer: only a successful, non-empty answer
      is scanned. */
  method ScanAnswer(answer: (bool, string), package: string) returns (hit: bool)
    ensures hit <==> AnswerHits(answer, package)
  {
    hit := false;
    if answer.0 && answer.1 != [] {
      hit := ScanLines(SplitLines(answer.1), package);
    }
  }

  /** The inner loop of lines 271-274: whether some line passes the test. */
  method ScanLines(lines: seq<string>, package: string) returns (hit: bool)
    ensures hit <==> AnyLineMatches(lines, package)
  {
    for i := 0 to |lines|
      invariant forall l :: 0 <= l < i ==> !LineMatches(lines[l], package)
    {
      if LineMatches(lines[i], package) {
        return true;
      }
    }
    return false;
  }

  /** What `CheckPackageExists` ensures about the searches it issued
      pins down its answer: the package is found exactly when one of the
      three searches would find it. */
  lemma FoundIffSomeHit(manager: string, package: string, run: string -> (bool, string),
                        found: bool, issued: seq<string>)
    requires 1 <= |issued| <= 3
    requires found <==> PatternHits(manager, package, run, |issued| - 1)
    requires forall j :: 0 <= j < |issued| - 1 ==> !PatternHits(manager, package, run, j)
    requires !found ==> |issued| == 3
    ensures found <==> exists j :: 0 <= j < 3 && PatternHits(manager, package, run, j)
  {
    if !found {
      assert !PatternHits(manager, package, run, 2);
    }
  }

  /** A header line as `-Ss` prints it names `package` exactly when its name
      is `package`: a longer name sharing the prefix does not count, and the
      `endswith` test never fires on a line that carries a version. */
  lemma HeaderLineMatches(repo: string, name: string, version: string, package: string)
    requires IsWord(repo) && IsWord(name) && IsWord(version) && IsWord(package)
    requires '/' !in repo && '/' !in name && '/' !in version
    ensures LineMatches(HeaderText(repo, name, version), package) <==> name == package
  {
    HeaderContains(repo, name, version, package);
    HeaderNoSuffix(repo, name, version, package);
  }

  /** The `in` half of the line test on a header line. */
  lemma HeaderContains(repo: string, name: string, version: string, package: string)
    requires IsWord(name) && IsWord(version) && IsWord(package)
    requires '/' !in repo && '/' !in name && '/' !in version
    ensures Contains(HeaderText(repo, name, version), "/" + package + " ") <==> name == package
  {
    if Contains(HeaderText(repo, name, version), "/" + package + " ") {
      HeaderContainsOnlyName(repo, name, version, package);
    }
    if name == package {
      var line := HeaderText(repo, name, version);
      assert line[|repo|..|repo| + |package| + 2] == "/" + package + " ";
      OccursContains(line, "/" + package + " ", |repo|);
    }
  }

  lemma HeaderContainsOnlyName(repo: string, name: string, version: string, package: string)
    requires IsWord(name) && IsWord(version) && IsWord(package)
    requires '/' !in repo && '/' !in name && '/' !in version
    requires Contains(HeaderText(repo, name, version), "/" + package + " ")
    ensures name == package
  {
    var line := HeaderText(repo, name, version);
    var tail := name + " " + version;
    assert line == repo + "/" + tail;
    NoSlashTail(repo, tail);
    assert line[|repo| + 1..] == tail;
    ContainsSlashWord(line, |repo|, tail, package);
    assert tail[|name|] == ' ';
    TokenEndIs(tail, |name|);
    TokenEndIs(tail, |package|);
    assert tail[..|name|] == name;
  }

  /** The `endswith` half of the line test never holds on a header line. */
  lemma HeaderNoSuffix(repo: string, name: string, version: string, package: string)
    requires IsWord(repo) && IsWord(name) && IsWord(version) && IsWord(package)
    requires '/' !in repo && '/' !in name && '/' !in version
    ensures !EndsWith(Strip(HeaderText(repo, name, version)), "/" + package)
  {
    var line := HeaderText(repo, name, version);
    var tail := name + " " + version;
    assert line == repo + "/" + tail;
    NoSlashTail(repo, tail);
    assert line[0] == repo[0] && line[|line| - 1] == version[|version| - 1];
    assert line[|repo| + 1 + |name|] == ' ';
    NoSlashSuffix(line, |repo|, |repo| + 1 + |name|, package);
  }

  /** The only `/` of `repo + "/" + tail` is the one after `repo`. */
  lemma NoSlashTail(repo: string, tail: string)
    requires '/' !in repo && '/' !in tail
    ensures var line := repo + "/" + tail;
            forall k :: 0 <= k < |line| && line[k] == '/' ==> k == |repo|
  {
    var line := repo + "/" + tail;
    assert forall k :: 0 <= k < |repo| ==> line[k] == repo[k];
    assert forall k :: |repo| < k < |line| ==> line[k] == tail[k - |repo| - 1];
  }

  /** `"/" + package + " "` occurs in a line with a single `/` only where the
      word after that slash is `package`. */
  lemma ContainsSlashWord(line: string, at: nat, tail: string, package: string)
    requires at < |line| && line[at] == '/' && line[at + 1..] == tail
    requires forall k :: 0 <= k < |line| && line[k] == '/' ==> k == at
    requires IsWord(package)
    ensures Contains(line, "/" + package + " ") ==>
              |package| < |tail| && tail[..|package|] == package && tail[|package|] == ' '
  {
    if Contains(line, "/" + package + " ") {
      var i := ContainsOccurs(line, "/" + package + " ");
      var pat := "/" + package + " ";
      assert line[i] == pat[0];
      assert forall k :: 0 <= k < |package| ==> tail[k] == line[at + 1 + k] == pat[1 + k];
      assert tail[|package|] == line[at + 1 + |package|] == pat[|package| + 1];
    }
  }

  /** A stripped line whose only `/` is followed, somewhere, by a space does
      not end in `"/" + package` for a word `package`. */
  lemma NoSlashSuffix(line: string, at: nat, space: nat, package: string)
    requires at < space < |line| && line[at] == '/' && line[space] == ' '
    requires forall k :: 0 <= k < |line| && line[k] == '/' ==> k == at
    requires Trimmed(line)
    requires IsWord(package)
    ensures !EndsWith(Strip(line), "/" + package)
  {
    var suffix := "/" + package;
    assert Strip(line) == line;
    if |suffix| <= |line| {
      var j := |line| - |suffix|;
      if j == at {
        assert line[j..][space - at] == ' ';
        assert suffix[space - at] == package[space - at - 1];
      } else {
        assert line[j..][0] == line[j];
      }
    }
  }
}

=== FILE: operations.dfy ===
/** The install, remove and update flows (aur-helper.py:184-189, 371-534)
    as decision tables. Everything a flow learns from outside is a
    parameter: the installed-package list, the reply typed at a prompt,
    which AUR helpers are present, the `auto_confirm` setting, and
    `succeeds`, whether a command exits with status 0. A flow's result is
    the package-changing commands it issued, in order, and the boolean it
    returns. The read-only queries a flow also runs are not recorded:
    `pacman -Qq` for the installed list and for the backup of lines
    191-212, and `pacman -Qtdq` after an update. The orphan clean-up that
    a successful update may go on to (lines 541-544), with its own
    `sudo pacman -Rns $(pacman -Qtdq)` at line 583, is not modelled, so a
    successful update's record ends with its plan. */
module Operations {
  import opened Wrappers
  import opened PyStr
  import opened PackageName
  import opened Commands

  /** What a flow did: the package-changing commands it issued, in order,
      and its result. The orphan clean-up after an update (lines 541-544)
      is outside this record. */
  datatype Run = Run(issued: seq<Command>, ok: bool)

  /** `get_installed_packages` given the answer to `pacman -Qq`: one name
      per output line; nothing when the query failed or printed nothing. */
  function InstalledPackages(success: bool, output: string): (r: seq<string>)
    ensures !success || output == [] ==> r == []
    ensures success && output != [] ==> Join(r, "\n") == output
    ensures forall i :: 0 <= i < |r| ==> '\n' !in r[i]
  {
    if success && output != [] then
      JoinSplitOn(output, '\n');
      SplitOn(output, '\n')
    else []
  }

  /** A list of names printed one per line is read back unchanged. */
  lemma InstalledPackagesOf(names: seq<string>)
    requires names != [] && forall i :: 0 <= i < |names| ==> '\n' !in names[i]
    requires Join(names, "\n") != []
    ensures InstalledPackages(true, Join(names, "\n")) == names
  {
    SplitOnJoin(names, '\n');
  }

  /** The reinstall prompt accepts `y` or `yes` in any casing, with
      surrounding whitespace. */
  predicate Confirms(answer: string) {
    var a := Strip(AsciiLower(answer));
    a == "y" || a == "yes"
  }

  /** Lowering before stripping, as line 381 does, is the same as reading
      the stripped answer in any casing. */
  lemma ConfirmsCaseless(answer: string)
    ensures Confirms(answer) <==> var t := AsciiLower(Strip(answer)); t == "y" || t == "yes"
  {
    StripLower(answer);
  }

  /** The command of lines 389-395. */
  function InstallCommand(m: Manager, package: string, autoConfirm: bool): Command {
    Command(NeedsSudo(m), m, Sync(package), autoConfirm)
  }

  /** `install_package`: an invalid name, or an installed package whose
      reinstall is declined, stops the flow before it changes anything;
      otherwise the one install command runs and its success is the
      result. */
  function InstallPackage(m: Manager, package: string, installed: seq<string>,
                          autoConfirm: bool, answer: string, succeeds: Command -> bool): (r: Run)
    ensures r.issued == [] || r.issued == [InstallCommand(m, package, autoConfirm)]
    ensures r.issued != [] <==>
              IsValidName(package) && (package !in installed || autoConfirm || Confirms(answer))
    ensures r.ok <==> r.issued != [] && succeeds(r.issued[0])
  {
    if !IsValidName(package) then Run([], false)
    else if package in installed && !autoConfirm && !Confirms(answer) then Run([], false)
    else
      var c := InstallCommand(m, package, autoConfirm);
      Run([c], succeeds(c))
  }

  /** The install command text: `sudo ` only for pacman, then
      `{manager} -S {package}`, then ` --noconfirm` under auto-confirm. */
  lemma InstallText(m: Manager, package: string, autoConfirm: bool)
    ensures Render(InstallCommand(m, package, autoConfirm)) ==
              (if m == Pacman then "sudo " else "") + ManagerName(m) + " -S " + package
              + (if autoConfirm then " --noconfirm" else "")
  {
    RenderText(InstallCommand(m, package, autoConfirm));
  }

  /** The modes `remove_package` accepts; all three issue the same remove
      command, `Purge` adds the cache clean. */
  datatype RemoveMode = Simple | Full | Purge

  function ParseRemoveMode(mode: string): (r: Option<RemoveMode>)
    ensures r.Some? <==> mode == "simple" || mode == "full" || mode == "purge"
    ensures r == Some(Purge) <==> mode == "purge"
  {
    if mode == "simple" then Some(Simple)
    else if mode == "full" then Some(Full)
    else if mode == "purge" then Some(Purge)
    else None
  }

  /** `sudo pacman -Rns {package}`, whatever manager was chosen. */
  function RemoveCommand(package: string, autoConfirm: bool): Command {
    Command(true, Pacman, RemoveRecursive(package), autoConfirm)
  }

  /** `sudo pacman -Sc`. */
  function CleanCommand(autoConfirm: bool): Command {
    Command(true, Pacman, CleanCache, autoConfirm)
  }

  /** `remove_package`: an invalid name, a package that is not installed
      or an unknown mode fails before any package-changing command;
      otherwise the remove
      command runs, a successful purge is followed by the cache clean, and
      the result is the remove command's success alone. The `manager`
      argument plays no part. */
  function RemovePackage(manager: Manager, package: string, mode: string, installed: seq<string>,
                         autoConfirm: bool, succeeds: Command -> bool): (r: Run)
    ensures r.issued != [] <==>
              IsValidName(package) && package in installed && ParseRemoveMode(mode).Some?
    ensures r.issued != [] ==> r.issued[0] == RemoveCommand(package, autoConfirm)
    ensures r.ok <==> r.issued != [] && succeeds(RemoveCommand(package, autoConfirm))
    ensures |r.issued| <= 2
    ensures |r.issued| == 2 <==> r.ok && mode == "purge"
    ensures |r.issued| == 2 ==> r.issued[1] == CleanCommand(autoConfirm)
    ensures forall i :: 0 <= i < |r.issued| ==> r.issued[i].sudo && r.issued[i].manager == Pacman
  {
    if !IsValidName(package) || package !in installed then Run([], false)
    else
      match ParseRemoveMode(mode)
      case None => Run([], false)
      case Some(m) =>
        var remove := RemoveCommand(package, autoConfirm);
        if !succeeds(remove) then Run([remove], false)
        else if m == Purge then Run([remove, CleanCommand(autoConfirm)], true)
        else Run([remove], true)
  }

  /** The remove command text of line 435. */
  lemma RemoveText(package: string, autoConfirm: bool)
    ensures Render(RemoveCommand(package, autoConfirm)) ==
              "sudo pacman -Rns " + package + (if autoConfirm then " --noconfirm" else "")
  {
    RenderText(RemoveCommand(package, autoConfirm));
    assert ManagerName(Pacman) == "pacman";
    assert "sudo " + "pacman" + " " + ("-Rns " + package) == "sudo pacman -Rns " + package;
  }

  /** The cache-clean command text of line 446. */
  lemma CleanText(autoConfirm: bool)
    ensures Render(CleanCommand(autoConfirm)) ==
              "sudo pacman -Sc" + (if autoConfirm then " --noconfirm" else "")
  {
    RenderText(CleanCommand(autoConfirm));
    assert ManagerName(Pacman) == "pacman";
    assert "sudo " + "pacman" + " " + "-Sc" == "sudo pacman -Sc";
  }

  /** The modes `update_system` accepts. */
  datatype UpdateMode = Standard | FullUpgrade | Refresh | Force

  function ParseUpdateMode(mode: string): (r: Option<UpdateMode>)
    ensures r.Some? <==> mode == "standard" || mode == "full" || mode == "refresh" || mode == "force"
    ensures r == Some(Standard) <==> mode == "standard"
    ensures r == Some(FullUpgrade) <==> mode == "full"
    ensures r == Some(Refresh) <==> mode == "refresh"
    ensures r == Some(Force) <==> mode == "force"
  {
    if mode == "standard" then Some(Standard)
    else if mode == "full" then Some(FullUpgrade)
    else if mode == "refresh" then Some(Refresh)
    else if mode == "force" then Some(Force)
    else None
  }

  /** `{manager} -Syu` or `{manager} -Syyu`, under `sudo` exactly for pacman. */
  function Upgrading(m: Manager, refresh: bool): Command {
    Command(NeedsSudo(m), m, if refresh then RefreshUpgrade else Upgrade, false)
  }

  /** The commands of lines 482-516, before `--noconfirm` is added. The
      AUR helper `yay` is preferred over `paru` when both are present. */
  function BasePlan(m: Manager, mode: UpdateMode, yayPresent: bool, paruPresent: bool): (plan: seq<Command>)
    ensures 1 <= |plan| <= 2
    ensures forall i :: 0 <= i < |plan| ==> !plan[i].noConfirm && (plan[i].sudo <==> plan[i].manager == Pacman)
    ensures plan[0].op == (if mode == Standard || mode == FullUpgrade then Upgrade else RefreshUpgrade)
    ensures mode == FullUpgrade && m == Pacman ==>
              plan[0].manager == (if yayPresent then Yay else if paruPresent then Paru else Pacman)
    ensures m != Pacman || mode == Standard || mode == Refresh ==> plan[0].manager == m
    ensures mode == Force && m == Pacman ==> plan[0] == Upgrading(Pacman, true)
    ensures |plan| == 2 <==> mode == Force && m == Pacman && (yayPresent || paruPresent)
    ensures |plan| == 2 ==> plan[1] == Upgrading(if yayPresent then Yay else Paru, false)
  {
    match mode
    case Standard => [Upgrading(m, false)]
    case Refresh => [Upgrading(m, true)]
    case FullUpgrade =>
      if m != Pacman then [Upgrading(m, false)]
      else if yayPresent then [Upgrading(Yay, false)]
      else if paruPresent then [Upgrading(Paru, false)]
      else [Upgrading(Pacman, false)]
    case Force =>
      if m != Pacman then [Upgrading(m, true)]
      else if yayPresent then [Upgrading(Pacman, true), Upgrading(Yay, false)]
      else if paruPresent then [Upgrading(Pacman, true), Upgrading(Paru, false)]
      else [Upgrading(Pacman, true)]
  }

  /** `[cmd + " --noconfirm" for cmd in commands]` under auto-confirm. */
  function Confirmed(plan: seq<Command>, autoConfirm: bool): (r: seq<Command>)
    requires forall i :: 0 <= i < |plan| ==> !plan[i].noConfirm
    ensures |r| == |plan|
    ensures forall i :: 0 <= i < |r| ==>
              r[i] == plan[i].(noConfirm := autoConfirm)
              && Render(r[i]) == Render(plan[i]) + (if autoConfirm then " --noconfirm" else "")
  {
    var r := seq(|plan|, i requires 0 <= i < |plan| => plan[i].(noConfirm := autoConfirm));
    forall i | 0 <= i < |plan|
      ensures Render(r[i]) == Render(plan[i]) + (if autoConfirm then " --noconfirm" else "")
    {
      if autoConfirm {
        RenderNoConfirm(plan[i]);
      } else {
        assert r[i] == plan[i];
      }
    }
    r
  }

  /** The plan of `update_system`; `None` for an unknown mode. */
  function UpdatePlan(m: Manager, mode: string, yayPresent: bool, paruPresent: bool,
                      autoConfirm: bool): (r: Option<seq<Command>>)
    ensures r.None? <==> ParseUpdateMode(mode).None?
    ensures r.Some? ==> r.value == Confirmed(BasePlan(m, ParseUpdateMode(mode).value, yayPresent, paruPresent), autoConfirm)
    ensures r.Some? ==> 1 <= |r.value| <= 2
    ensures r.Some? ==> forall i :: 0 <= i < |r.value| ==>
              r.value[i].noConfirm == autoConfirm && (r.value[i].sudo <==> r.value[i].manager == Pacman)
  {
    match ParseUpdateMode(mode)
    case None => None
    case Some(u) => Some(Confirmed(BasePlan(m, u, yayPresent, paruPresent), autoConfirm))
  }

  /** `update_system(pacman, "force")` plans `sudo pacman -Syyu`, then
      `yay -Syu` when yay is present, else `paru -Syu` when paru is, each
      with ` --noconfirm` under auto-confirm. */
  lemma ForceFromPacmanText(yayPresent: bool, paruPresent: bool, autoConfirm: bool)
    ensures UpdatePlan(Pacman, "force", yayPresent, paruPresent, autoConfirm).Some?
    ensures var plan := UpdatePlan(Pacman, "force", yayPresent, paruPresent, autoConfirm).value;
            var nc := if autoConfirm then " --noconfirm" else "";
            && Render(plan[0]) == "sudo pacman -Syyu" + nc
            && (|plan| == 2 <==> yayPresent || paruPresent)
            && (|plan| == 2 ==> Render(plan[1]) == (if yayPresent then "yay -Syu" else "paru -Syu") + nc)
  {
    assert ParseUpdateMode("force") == Some(Force);
    var base := BasePlan(Pacman, Force, yayPresent, paruPresent);
    ForceBaseText(yayPresent, paruPresent);
    var plan := UpdatePlan(Pacman, "force", yayPresent, paruPresent, autoConfirm).value;
    assert plan == Confirmed(base, autoConfirm);
  }

  /** The texts of the force plan from pacman before `--noconfirm`. */
  lemma ForceBaseText(yayPresent: bool, paruPresent: bool)
    ensures var base := BasePlan(Pacman, Force, yayPresent, paruPresent);
            && Render(base[0]) == "sudo pacman -Syyu"
            && (|base| == 2 ==> Render(base[1]) == if yayPresent then "yay -Syu" else "paru -Syu")
  {
    var base := BasePlan(Pacman, Force, yayPresent, paruPresent);
    RenderText(base[0]);
    assert ManagerName(Pacman) == "pacman";
    assert "sudo " + "pacman" + " " + "-Syyu" == "sudo pacman -Syyu";
    if |base| == 2 {
      RenderText(base[1]);
      if yayPresent {
        assert ManagerName(Yay) == "yay";
        assert "yay" + " " + "-Syu" == "yay -Syu";
      } else {
        assert ManagerName(Paru) == "paru";
        assert "paru" + " " + "-Syu" == "paru -Syu";
      }
    }
  }

  /** Lines 523-534: the commands run in order until the first one fails. */
  function RunUntilFailure(plan: seq<Command>, succeeds: Command -> bool): (r: Run)
    ensures |r.issued| <= |plan| && r.issued == plan[..|r.issued|]
    ensures r.ok <==> forall i :: 0 <= i < |plan| ==> succeeds(plan[i])
    ensures r.ok ==> r.issued == plan
    ensures forall i :: 0 <= i < |r.issued| - 1 ==> succeeds(r.issued[i])
    ensures !r.ok ==> r.issued != [] && !succeeds(r.issued[|r.issued| - 1])
    decreases |plan|
  {
    if plan == [] then Run([], true)
    else if !succeeds(plan[0]) then Run([plan[0]], false)
    else
      var rest := RunUntilFailure(plan[1..], succeeds);
      assert plan == [plan[0]] + plan[1..];
      Run([plan[0]] + rest.issued, rest.ok)
  }

  /** The run stops right after the first failing command, or after the
      last command when none fails. */
  lemma {:induction false} RunUntilFailureAt(plan: seq<Command>, succeeds: Command -> bool, k: nat)
    requires k <= |plan|
    requires forall i :: 0 <= i < k ==> succeeds(plan[i])
    requires k < |plan| ==> !succeeds(plan[k])
    ensures RunUntilFailure(plan, succeeds) ==
              if k == |plan| then Run(plan, true) else Run(plan[..k + 1], false)
    decreases k
  {
    if k > 0 {
      var tail := plan[1..];
      assert forall i :: 0 <= i < k - 1 ==> tail[i] == plan[i + 1];
      RunUntilFailureAt(tail, succeeds, k - 1);
      if k < |plan| {
        ConsTake(plan, k);
      } else {
        HeadTail(plan);
      }
    }
  }

  lemma ConsTake<T>(s: seq<T>, k: nat)
    requires 0 < k < |s|
    ensures s[..k + 1] == [s[0]] + s[1..][..k]
  {
  }

  /** The loop of lines 523-534, with its `break`. */
  method ExecutePlan(plan: seq<Command>, succeeds: Command -> bool) returns (issued: seq<Command>, allSuccess: bool)
    ensures Run(issued, allSuccess) == RunUntilFailure(plan, succeeds)
  {
    issued := [];
    allSuccess := true;
    var i := 0;
    while i < |plan|
      invariant i <= |plan| && issued == plan[..i]
      invariant forall j :: 0 <= j < i ==> succeeds(plan[j])
    {
      issued := issued + [plan[i]];
      if !succeeds(plan[i]) {
        allSuccess := false;
        break;
      }
      i := i + 1;
    }
    RunUntilFailureAt(plan, succeeds, i);
  }

  /** `update_system`: an unknown mode fails without running a
      package-changing command (the backup has already been taken);
      otherwise the plan runs until its first failure and the result is
      whether every planned command succeeded. */
  function UpdateSystem(m: Manager, mode: string, yayPresent: bool, paruPresent: bool,
                        autoConfirm: bool, succeeds: Command -> bool): (r: Run)
    ensures ParseUpdateMode(mode).None? ==> r == Run([], false)
    ensures ParseUpdateMode(mode).Some? ==>
              r == RunUntilFailure(UpdatePlan(m, mode, yayPresent, paruPresent, autoConfirm).value, succeeds)
    ensures r.ok <==> UpdatePlan(m, mode, yayPresent, paruPresent, autoConfirm).Some?
                      && var plan := UpdatePlan(m, mode, yayPresent, paruPresent, autoConfirm).value;
                         forall i :: 0 <= i < |plan| ==> succeeds(plan[i])
  {
    match UpdatePlan(m, mode, yayPresent, paruPresent, autoConfirm)
    case None => Run([], false)
    case Some(plan) => RunUntilFailure(plan, succeeds)
  }
}

=== FILE: package_name.dfy ===
/** Package-name validation (`validate_package_name`, aur-helper.py:178-182):
    `re.match(r'^[a-zA-Z0-9][a-zA-Z0-9@._+-]*$', name)` together with a
    length bound of 255 characters. */
module PackageName {
  import opened PyStr

  const MaxNameLength: nat := 255

  /** `[a-zA-Z0-9]`: the explicit ranges are ASCII-only. */
  predicate IsAsciiAlnum(c: char) {
    ('a' <= c <= 'z') || ('A' <= c <= 'Z') || ('0' <= c <= '9')
  }

  /** `[a-zA-Z0-9@._+-]`. */
  predicate IsNameChar(c: char) {
    IsAsciiAlnum(c) || c == '@' || c == '.' || c == '_' || c == '+' || c == '-'
  }

  /** The whole of `s` is one alphanumeric followed by name characters. */
  predicate NameBody(s: string) {
    |s| > 0 && IsAsciiAlnum(s[0]) && forall i :: 1 <= i < |s| ==> IsNameChar(s[i])
  }

  /** What the anchored pattern accepts: Python's `$` also matches just
      before a final `"\n"`, so a name body followed by one newline passes. */
  predicate MatchesPattern(s: string) {
    NameBody(s) || (|s| >= 2 && s[|s| - 1] == '\n' && NameBody(s[..|s| - 1]))
  }

  /** A name `validate_package_name` accepts; the length counts a trailing
      newline. */
  predicate IsValidName(s: string) {
    MatchesPattern(s) && |s| <= MaxNameLength
  }

  /** The check as the regular-expression engine runs it: the first
      character class, the greedy star, then the `$` anchor, then the
      length test. */
  method ValidatePackageName(s: string) returns (ok: bool)
    ensures ok <==> IsValidName(s)
  {
    if |s| == 0 || !IsAsciiAlnum(s[0]) {
      return false;
    }
    var i := 1;
    while i < |s| && IsNameChar(s[i])
      invariant 1 <= i <= |s|
      invariant forall k :: 1 <= k < i ==> IsNameChar(s[k])
    {
      i := i + 1;
    }
    var dollar := i == |s| || (i == |s| - 1 && s[i] == '\n');
    if i == |s| - 1 && s[i] == '\n' {
      assert NameBody(s[..i]);
    }
    if |s| >= 2 && s[|s| - 1] == '\n' && NameBody(s[..|s| - 1]) {
      assert forall k :: 1 <= k < |s| - 1 ==> s[..|s| - 1][k] == s[k];
    }
    ok := dollar && |s| <= MaxNameLength;
  }

  /** Accepted and rejected names, including the trailing-newline quirk of
      `$`. */
  lemma NameExamples()
    ensures IsValidName("firefox")
    ensures IsValidName("lib32-glibc")
    ensures IsValidName("a")
    ensures !IsValidName("-bad")
    ensures !IsValidName("")
    ensures !IsValidName("fire fox")
    ensures !IsValidName(seq(256, _ => 'a'))
    ensures IsValidName(seq(255, _ => 'a'))
    ensures IsValidName("abc\n")
    ensures !IsValidName("abc\n\n")
  {
    assert !IsNameChar(("fire fox")[4]);
    assert ("fire fox")[..7][4] == ' ';
    assert ("abc\n")[..3] == "abc";
    assert ("abc\n\n")[..4][3] == '\n';
  }

  /** An accepted name without the trailing newline is a single shell word:
      no whitespace, no `/`, and it cannot be mistaken for an option. */
  lemma ValidNameIsWord(s: string)
    requires IsValidName(s) && s[|s| - 1] != '\n'
    ensures IsWord(s)
    ensures '/' !in s
    ensures s[0] != '-'
  {
    assert NameBody(s);
    forall i | 0 <= i < |s|
      ensures !IsSpace(s[i]) && s[i] != '/'
    {
      assert i == 0 || IsNameChar(s[i]);
    }
  }
}

=== FILE: py_int.dfy ===
/** Python's `int(text)` for base-10 text, as the helper uses it to read
    menu numbers: surrounding whitespace is ignored, one optional sign,
    then ASCII digits with single underscores allowed between digits.
    The whitespace `int()` ignores is narrower than `str.strip()`'s: it
    leaves the separators U+001C-U+001F in place. */
module PyInt {
  import opened Wrappers
  import opened PyStr

  predicate IsDigit(c: char) {
    '0' <= c <= '9'
  }

  function DigitValue(c: char): (d: nat)
    requires IsDigit(c)
    ensures d < 10
  {
    c as int - '0' as int
  }

  predicate AllDigits(s: string) {
    forall i :: 0 <= i < |s| ==> IsDigit(s[i])
  }

  /** Position `i` of `s` holds a digit, or an underscore followed by a digit. */
  predicate DigitOrJoiner(s: string, i: nat)
    requires i < |s|
  {
    IsDigit(s[i]) || (s[i] == '_' && i + 1 < |s| && IsDigit(s[i + 1]))
  }

  /** The digit part `int()` accepts: starts and ends with a digit, and every
      underscore is followed by a digit (so none is doubled). */
  predicate DigitRun(s: string) {
    && s != []
    && IsDigit(s[0])
    && IsDigit(s[|s| - 1])
    && forall i :: 0 <= i < |s| ==> DigitOrJoiner(s, i)
  }

  lemma DigitRunChars(s: string)
    requires DigitRun(s)
    ensures DigitsAndUnderscores(s)
  {
    forall i | 0 <= i < |s|
      ensures IsDigit(s[i]) || s[i] == '_'
    {
      assert DigitOrJoiner(s, i);
    }
  }

  /** Only digits and underscores: what `DropUnderscores` works on. */
  predicate DigitsAndUnderscores(s: string) {
    forall i :: 0 <= i < |s| ==> IsDigit(s[i]) || s[i] == '_'
  }

  /** `s` with its underscores dropped. */
  function DropUnderscores(s: string): (r: string)
    ensures |r| <= |s|
    ensures '_' !in r
  {
    if s == [] then []
    else (if s[0] == '_' then [] else [s[0]]) + DropUnderscores(s[1..])
  }

  /** Dropping the underscores of digits and underscores leaves digits. */
  lemma {:induction false} DropLeavesDigits(s: string)
    requires DigitsAndUnderscores(s)
    ensures AllDigits(DropUnderscores(s))
  {
    if s != [] {
      DropLeavesDigits(s[1..]);
    }
  }

  /** Text without underscores is left as it is. */
  lemma {:induction false} DropAllDigits(s: string)
    requires AllDigits(s)
    ensures DropUnderscores(s) == s
  {
    if s != [] {
      DropAllDigits(s[1..]);
      assert s == [s[0]] + s[1..];
    }
  }

  /** The number a digit string denotes, most significant digit first. */
  function DecimalValue(ds: string): nat
    requires AllDigits(ds)
  {
    if ds == [] then 0 else 10 * DecimalValue(ds[..|ds| - 1]) + DigitValue(ds[|ds| - 1])
  }

  /** The characters `int()` skips around a number. ASCII text reaches the
      number reader unchanged, and it skips only `\t\n\v\f\r` and space;
      non-ASCII whitespace is first turned into a space. The separators
      U+001C-U+001F, which `str.isspace` accepts, are therefore not among
      them. */
  predicate IsIntSpace(c: char) {
    IsSpace(c) && !(28 <= c as int <= 31)
  }

  /** Length of the leading `int()` whitespace of `s`. */
  function IntLead(s: string): (a: nat)
    ensures a <= |s|
    ensures forall i :: 0 <= i < a ==> IsIntSpace(s[i])
    ensures a < |s| ==> !IsIntSpace(s[a])
  {
    if s == [] || !IsIntSpace(s[0]) then 0 else 1 + IntLead(s[1..])
  }

  /** Index where the trailing `int()` whitespace of `s` begins. */
  function IntTrail(s: string): (b: nat)
    ensures b <= |s|
    ensures forall i :: b <= i < |s| ==> IsIntSpace(s[i])
    ensures b > 0 ==> !IsIntSpace(s[b - 1])
  {
    if s == [] || !IsIntSpace(s[|s| - 1]) then |s| else IntTrail(s[..|s| - 1])
  }

  /** No `int()` whitespace at either end. */
  predicate IntTrimmed(s: string) {
    s == [] || (!IsIntSpace(s[0]) && !IsIntSpace(s[|s| - 1]))
  }

  /** The text `int()` reads a number from: `s` without the `int()`
      whitespace at either end. */
  function IntStrip(s: string): (r: string)
    ensures IntTrimmed(r)
    ensures IntTrimmed(s) ==> r == s
    ensures |r| <= |s|
    ensures r == [] ==> forall i :: 0 <= i < |s| ==> IsIntSpace(s[i])
    ensures r != [] ==> IntLead(s) + |r| <= |s| && r == s[IntLead(s)..IntLead(s) + |r|]
                        && forall i :: IntLead(s) + |r| <= i < |s| ==> IsIntSpace(s[i])
  {
    var a := IntLead(s);
    var b := IntTrail(s);
    if b <= a then [] else s[a..b]
  }

  /** Text `strip()` has trimmed is left alone by `int()`'s trimming, since
      every character `int()` skips is whitespace to `strip()` too. */
  lemma IntStripOfStripped(s: string)
    requires Trimmed(s)
    ensures IntStrip(s) == s
  {
    assert IntTrimmed(s);
  }

  /** The text after one leading sign, if there is one. */
  function Unsigned(t: string): (u: string)
    ensures |u| <= |t|
  {
    if t != [] && (t[0] == '-' || t[0] == '+') then t[1..] else t
  }

  /** The number `int()` reads from text it has already trimmed: one
      optional sign, then a run of digits; `None` for anything else. */
  function ReadNumber(t: string): (r: Option<int>)
    ensures r.Some? <==> DigitRun(Unsigned(t))
    ensures r.Some? ==>
              && t != [] && IsDigit(t[|t| - 1])
              && (IsDigit(t[0]) || t[0] == '-' || t[0] == '+')
              && forall i :: 0 < i < |t| ==> IsDigit(t[i]) || t[i] == '_'
    ensures r.Some? && r.value < 0 ==> t[0] == '-'
  {
    var negative := t != [] && t[0] == '-';
    var body := Unsigned(t);
    if DigitRun(body) then
      DigitRunChars(body);
      DropLeavesDigits(body);
      var n: int := DecimalValue(DropUnderscores(body));
      Some(if negative then -n else n)
    else None
  }

  /** `int(s)`, or `None` where Python raises `ValueError`. */
  function ParseInt(s: string): (r: Option<int>)
    ensures r.Some? <==> DigitRun(Unsigned(IntStrip(s)))
    ensures r.Some? ==> var t := IntStrip(s);
              && t != [] && IsDigit(t[|t| - 1])
              && (IsDigit(t[0]) || t[0] == '-' || t[0] == '+')
              && forall i :: 0 < i < |t| ==> IsDigit(t[i]) || t[i] == '_'
    ensures r.Some? && r.value < 0 ==> IntStrip(s)[0] == '-'
  {
    ReadNumber(IntStrip(s))
  }

  /** `str(n)` for a natural number. */
  function NatToDecimal(n: nat): (r: string)
    ensures r != [] && AllDigits(r)
    ensures DecimalValue(r) == n
    ensures r == "0" || r[0] != '0'
  {
    var last := ['0' + (n % 10) as char];
    if n < 10 then last
    else
      var front := NatToDecimal(n / 10);
      var r := front + last;
      assert r[..|r| - 1] == front;
      r
  }

  lemma AllDigitsRun(d: string)
    requires d != [] && AllDigits(d)
    ensures DigitRun(d)
  {
    forall i | 0 <= i < |d|
      ensures DigitOrJoiner(d, i)
    {
    }
  }

  /** Text that `int()` trims to plain digits reads as the number they denote. */
  lemma ParseDigits(s: string)
    requires var t := IntStrip(s); t != [] && AllDigits(t)
    ensures ParseInt(s) == Some(DecimalValue(IntStrip(s)))
  {
    AllDigitsRun(IntStrip(s));
    DropAllDigits(IntStrip(s));
  }

  /** Reading back what `str` wrote gives the number again. */
  lemma ParseNatToDecimal(n: nat)
    ensures ParseInt(NatToDecimal(n)) == Some(n)
  {
    var s := NatToDecimal(n);
    assert !IsIntSpace(s[0]) && !IsIntSpace(s[|s| - 1]);
    assert IntStrip(s) == s;
    ParseDigits(s);
  }

  /** A sign in front of a decimal numeral: `-` negates it, `+` keeps it. */
  lemma ParseSigned(n: nat)
    ensures ParseInt("-" + NatToDecimal(n)) == Some(-(n as int))
    ensures ParseInt("+" + NatToDecimal(n)) == Some(n)
  {
    SignedDecimal('-', n);
    SignedDecimal('+', n);
  }

  /** `int()` of one sign in front of the decimal text of `n`. */
  lemma SignedDecimal(sign: char, n: nat)
    requires sign == '-' || sign == '+'
    ensures ParseInt([sign] + NatToDecimal(n)) == Some(if sign == '-' then -(n as int) else n)
  {
    var d := NatToDecimal(n);
    AllDigitsRun(d);
    DropAllDigits(d);
    SignedDigits(sign, d);
  }

  /** `int()` of a sign followed by plain digits. */
  lemma SignedDigits(sign: char, d: string)
    requires sign == '-' || sign == '+'
    requires DigitRun(d) && AllDigits(d) && DropUnderscores(d) == d
    ensures var v: int := DecimalValue(d); ParseInt([sign] + d) == Some(if sign == '-' then -v else v)
  {
    var t := [sign] + d;
    SignedNumeral(sign, d);
    ReadSigned(sign, d);
    assert ParseInt(t) == ReadNumber(t);
  }

  /** The number read from a sign followed by plain digits. */
  lemma ReadSigned(sign: char, d: string)
    requires sign == '-' || sign == '+'
    requires DigitRun(d) && AllDigits(d) && DropUnderscores(d) == d
    requires Unsigned([sign] + d) == d
    ensures var v: int := DecimalValue(d); ReadNumber([sign] + d) == Some(if sign == '-' then -v else v)
  {
    var t := [sign] + d;
    var v: int := DecimalValue(d);
    assert t != [] && t[0] == sign;
    assert DigitRun(Unsigned(t)) && DropUnderscores(Unsigned(t)) == d;
    assert ReadNumber(t) == Some(if t[0] == '-' then -v else v);
  }

  /** A sign followed by digits is already stripped, and the sign is what
      `Unsigned` drops. */
  lemma SignedNumeral(sign: char, d: string)
    requires sign == '-' || sign == '+'
    requires DigitRun(d)
    ensures IntStrip([sign] + d) == [sign] + d
    ensures Unsigned([sign] + d) == d
  {
    var t := [sign] + d;
    assert t[|t| - 1] == d[|d| - 1] && IsDigit(d[|d| - 1]);
    assert !IsIntSpace(t[0]) && !IsIntSpace(t[|t| - 1]);
    assert IntTrimmed(t);
    assert t[1..] == d;
  }

  /** An underscore between two runs of digits is ignored: `1_0` reads as
      10. */
  lemma ParseUnderscored(a: string, b: string)
    requires a != [] && AllDigits(a)
    requires b != [] && AllDigits(b)
    ensures ParseInt(a + "_" + b) == Some(DecimalValue(a + b))
  {
    var s := a + "_" + b;
    JoinedDigitRun(a, b);
    assert s[0] == a[0] && s[|s| - 1] == b[|b| - 1];
    assert IntStrip(s) == s;
    assert Unsigned(s) == s;
    DropJoined(a, b);
  }

  lemma JoinedDigitRun(a: string, b: string)
    requires a != [] && AllDigits(a)
    requires b != [] && AllDigits(b)
    ensures DigitRun(a + "_" + b)
  {
    var s := a + "_" + b;
    forall i | 0 <= i < |s|
      ensures DigitOrJoiner(s, i)
    {
      if i < |a| {
        assert s[i] == a[i];
      } else if i == |a| {
        assert s[i + 1] == b[0];
      } else {
        assert s[i] == b[i - |a| - 1];
      }
    }
  }

  lemma DropJoined(a: string, b: string)
    requires AllDigits(a) && AllDigits(b)
    ensures DropUnderscores(a + "_" + b) == a + b
  {
    var u := "_" + b;
    assert DropUnderscores(u) == b by {
      assert u[1..] == b;
      DropAllDigits(b);
    }
    DropAllDigits(a);
    DropConcat(a, u);
    assert a + "_" + b == a + u;
  }

  /** Dropping underscores works piece by piece. */
  lemma {:induction false} DropConcat(x: string, y: string)
    ensures DropUnderscores(x + y) == DropUnderscores(x) + DropUnderscores(y)
    decreases |x|
  {
    if x == [] {
      assert x + y == y;
    } else {
      var h := if x[0] == '_' then [] else [x[0]];
      var dx, dy := DropUnderscores(x[1..]), DropUnderscores(y);
      assert (x + y)[0] == x[0] && (x + y)[1..] == x[1..] + y;
      calc {
        DropUnderscores(x + y);
        h + DropUnderscores(x[1..] + y);
        { DropConcat(x[1..], y); }
        h + (dx + dy);
        (h + dx) + dy;
      }
    }
  }

  /** Text with a character that is neither a digit, an underscore, a sign
      in front nor surrounding whitespace is rejected. */
  lemma ParseRejectsLetter(s: string, i: int)
    requires var t := IntStrip(s); 0 < i < |t| && !IsDigit(t[i]) && t[i] != '_'
    ensures ParseInt(s) == None
  {
    var t := IntStrip(s);
    var j := if t[0] == '-' || t[0] == '+' then i - 1 else i;
    var body := if t[0] == '-' || t[0] == '+' then t[1..] else t;
    assert body[j] == t[i];
    assert !DigitOrJoiner(body, j);
  }

  /** A leading U+001C is whitespace to `strip()` but not to `int()`:
      `"\x1c5".strip()` is `"5"`, while `int("\x1c5")` raises
      `ValueError`. */
  lemma SeparatorIsNoIntSpace()
    ensures Strip([28 as char, '5']) == "5"
    ensures ParseInt([28 as char, '5']) == None
  {
    var s := [28 as char, '5'];
    assert IsSpace(s[0]) && !IsSpace(s[1]);
    assert LeadEnd(s) == 1 && TrailStart(s) == 2;
    assert !DigitRun(s);
  }
}

=== FILE: py_str.dfy ===
/** The Python `str` operations the helper's text handling is built from,
    modelled on `string` (a `seq<char>` of code points):
    `strip()`, `split()`, `split(sep)`, `splitlines()`, `in`, `startswith`,
    `endswith` and `lower()` restricted to ASCII letters. */
module PyStr {

  /** `str.isspace()` for one character: the whitespace set used by the
      argument-less `strip()` and `split()`. */
  predicate IsSpace(c: char) {
    var n := c as int;
    (9 <= n <= 13) || (28 <= n <= 32) || n == 0x85 || n == 0xA0 || n == 0x1680
    || (0x2000 <= n <= 0x200A) || n == 0x2028 || n == 0x2029 || n == 0x202F
    || n == 0x205F || n == 0x3000
  }

  /** The line boundaries recognised by `str.splitlines()`
      (`\r\n` is handled as one boundary by `SplitLines`). */
  predicate IsLineBreak(c: char) {
    var n := c as int;
    (10 <= n <= 13) || (28 <= n <= 30) || n == 0x85 || n == 0x2028 || n == 0x2029
  }

  predicate NoSpace(s: string) {
    forall i :: 0 <= i < |s| ==> !IsSpace(s[i])
  }

  predicate NoLineBreak(s: string) {
    forall i :: 0 <= i < |s| ==> !IsLineBreak(s[i])
  }

  predicate StartsWith(s: string, prefix: string) {
    |prefix| <= |s| && s[..|prefix|] == prefix
  }

  /** A one-character prefix is a test of the first character. */
  lemma StartsWithChar(s: string, c: char)
    ensures StartsWith(s, [c]) <==> s != [] && s[0] == c
  {
    if s != [] {
      assert s[..1][0] == s[0];
    }
  }

  predicate EndsWith(s: string, suffix: string) {
    |suffix| <= |s| && s[|s| - |suffix|..] == suffix
  }

  /** `sub` occurs in `s` starting at index `i`. */
  predicate OccursAt(s: string, sub: string, i: int) {
    0 <= i <= |s| - |sub| && s[i..i + |sub|] == sub
  }

  /** `sub in s`, computed by scanning the start positions left to right. */
  predicate Contains(s: string, sub: string)
    decreases |s|
  {
    StartsWith(s, sub) || (s != [] && Contains(s[1..], sub))
  }

  /** An occurrence anywhere is found by the scan. */
  lemma {:induction false} OccursContains(s: string, sub: string, i: int)
    requires OccursAt(s, sub, i)
    ensures Contains(s, sub)
    decreases i
  {
    if i == 0 {
      assert s[..|sub|] == s[0..0 + |sub|];
    } else {
      assert s[1..][i - 1..i - 1 + |sub|] == s[i..i + |sub|];
      OccursContains(s[1..], sub, i - 1);
    }
  }

  /** What the scan finds is a real occurrence. */
  lemma {:induction false} ContainsOccurs(s: string, sub: string) returns (i: int)
    requires Contains(s, sub)
    ensures OccursAt(s, sub, i)
    decreases |s|
  {
    if StartsWith(s, sub) {
      assert s[0..0 + |sub|] == s[..|sub|];
      i := 0;
    } else {
      var j := ContainsOccurs(s[1..], sub);
      assert s[j + 1..j + 1 + |sub|] == s[1..][j..j + |sub|];
      i := j + 1;
    }
  }

  /** The scanning definition agrees with "some window of `s` equals `sub`". */
  lemma ContainsIff(s: string, sub: string)
    ensures Contains(s, sub) <==> exists i :: OccursAt(s, sub, i)
  {
    if Contains(s, sub) {
      var i := ContainsOccurs(s, sub);
    }
    forall i | OccursAt(s, sub, i)
      ensures Contains(s, sub)
    {
      OccursContains(s, sub, i);
    }
  }

  /** Length of the leading whitespace of `s`. */
  function LeadEnd(s: string): (a: nat)
    ensures a <= |s|
    ensures forall i :: 0 <= i < a ==> IsSpace(s[i])
    ensures a < |s| ==> !IsSpace(s[a])
  {
    if s == [] || !IsSpace(s[0]) then 0 else 1 + LeadEnd(s[1..])
  }

  /** `LeadEnd` is pinned down by its two boundary facts. */
  lemma LeadEndIs(s: string, n: nat)
    requires n <= |s|
    requires forall i :: 0 <= i < n ==> IsSpace(s[i])
    requires n < |s| ==> !IsSpace(s[n])
    ensures LeadEnd(s) == n
  {
  }

  /** Index where the trailing whitespace of `s` begins. */
  function TrailStart(s: string): (b: nat)
    ensures b <= |s|
    ensures forall i :: b <= i < |s| ==> IsSpace(s[i])
    ensures b > 0 ==> !IsSpace(s[b - 1])
  {
    if s == [] || !IsSpace(s[|s| - 1]) then |s| else TrailStart(s[..|s| - 1])
  }

  /** `TrailStart` is pinned down by its two boundary facts. */
  lemma {:induction false} TrailStartIs(s: string, n: nat)
    requires n <= |s|
    requires forall i :: n <= i < |s| ==> IsSpace(s[i])
    requires n > 0 ==> !IsSpace(s[n - 1])
    ensures TrailStart(s) == n
    decreases |s|
  {
    if n < |s| {
      var t := s[..|s| - 1];
      assert forall i :: n <= i < |t| ==> t[i] == s[i];
      assert n > 0 ==> t[n - 1] == s[n - 1];
      TrailStartIs(t, n);
    }
  }

  /** `s.lstrip()`: drops the leading whitespace. */
  function LStrip(s: string): (r: string)
    ensures r == [] || !IsSpace(r[0])
    ensures |r| <= |s| && r == s[|s| - |r|..]
  {
    s[LeadEnd(s)..]
  }

  /** No whitespace at either end. */
  predicate Trimmed(s: string) {
    s == [] || (!IsSpace(s[0]) && !IsSpace(s[|s| - 1]))
  }

  /** `s.strip()`: the slice of `s` between its leading and its trailing
      whitespace; a string that is all whitespace strips to `""`. */
  function Strip(s: string): (r: string)
    ensures Trimmed(r)
    ensures Trimmed(s) ==> r == s
    ensures |r| <= |s|
    ensures r == [] ==> forall i :: 0 <= i < |s| ==> IsSpace(s[i])
    ensures r != [] ==> LeadEnd(s) + |r| <= |s| && r == s[LeadEnd(s)..LeadEnd(s) + |r|]
                        && forall i :: LeadEnd(s) + |r| <= i < |s| ==> IsSpace(s[i])
  {
    var a := LeadEnd(s);
    var b := TrailStart(s);
    if b <= a then [] else s[a..b]
  }

  /** Length of the leading run of non-whitespace characters. */
  function TokenEnd(s: string): (k: nat)
    ensures k <= |s|
    ensures forall i :: 0 <= i < k ==> !IsSpace(s[i])
    ensures k < |s| ==> IsSpace(s[k])
  {
    if s == [] || IsSpace(s[0]) then 0 else 1 + TokenEnd(s[1..])
  }

  /** `TokenEnd` is pinned down by its two boundary facts. */
  lemma TokenEndIs(s: string, n: nat)
    requires n <= |s|
    requires forall i :: 0 <= i < n ==> !IsSpace(s[i])
    requires n < |s| ==> IsSpace(s[n])
    ensures TokenEnd(s) == n
  {
  }

  /** Non-empty, whitespace-free words: what `split()` produces. */
  predicate IsWord(w: string) {
    w != [] && NoSpace(w)
  }

  predicate AllWords(ws: seq<string>) {
    forall i :: 0 <= i < |ws| ==> IsWord(ws[i])
  }

  lemma WordsCons(w: string, ws: seq<string>)
    requires IsWord(w) && AllWords(ws)
    ensures AllWords([w] + ws)
  {
    assert forall i :: 1 <= i < |[w] + ws| ==> ([w] + ws)[i] == ws[i - 1];
  }

  /** `s.split()` with no separator: the maximal runs of non-whitespace
      characters, in order. */
  function Split(s: string): (r: seq<string>)
    ensures AllWords(r)
    decreases |s|
  {
    var t := LStrip(s);
    if t == [] then []
    else
      var k := TokenEnd(t);
      var w := t[..k];
      var rest := Split(t[k..]);
      assert IsWord(w);
      WordsCons(w, rest);
      [w] + rest
  }

  /** `sep.join(ws)`. */
  function Join(ws: seq<string>, sep: string): string {
    if ws == [] then []
    else if |ws| == 1 then ws[0]
    else ws[0] + sep + Join(ws[1..], sep)
  }

  /** Joining ends with the last piece, so a non-empty last piece makes a
      non-empty text. */
  lemma {:induction false} JoinNonEmpty(ws: seq<string>, sep: string)
    requires ws != [] && ws[|ws| - 1] != []
    ensures Join(ws, sep) != []
    decreases |ws|
  {
    if |ws| > 1 {
      JoinNonEmpty(ws[1..], sep);
    }
  }

  /** A whitespace-free word splits to itself. */
  lemma SplitWord(w: string)
    requires IsWord(w)
    ensures Split(w) == [w]
  {
    assert LStrip(w) == w;
    TokenEndIs(w, |w|);
    assert w[|w|..] == [];
    assert w[..|w|] == w;
    assert Split([]) == [];
  }

  /** A word followed by a space is split off as the first token. */
  lemma SplitCons(w: string, rest: string)
    requires IsWord(w)
    ensures Split(w + " " + rest) == [w] + Split(rest)
  {
    var s := w + " " + rest;
    assert s[0] == w[0];
    assert LStrip(s) == s;
    assert s[|w|] == ' ';
    TokenEndIs(s, |w|);
    assert s[..|w|] == w;
    var tail := s[|w|..];
    assert tail == " " + rest;
    assert tail[1..] == rest;
    assert LStrip(tail) == LStrip(rest);
  }

  /** One step of `SplitJoin`: the first word comes off the front. */
  lemma SplitJoinStep(ws: seq<string>)
    requires |ws| > 1 && IsWord(ws[0])
    ensures Split(Join(ws, " ")) == [ws[0]] + Split(Join(ws[1..], " "))
  {
    SplitCons(ws[0], Join(ws[1..], " "));
  }

  /** Splitting a single-space join of whitespace-free words gives the words back. */
  lemma {:induction false} SplitJoin(ws: seq<string>)
    requires AllWords(ws)
    ensures Split(Join(ws, " ")) == ws
    decreases |ws|
  {
    if |ws| == 1 {
      SplitWord(ws[0]);
    } else if |ws| > 1 {
      SplitJoinStep(ws);
      SplitJoin(ws[1..]);
      HeadTail(ws);
    }
  }

  lemma TakeDrop<T>(s: seq<T>, b: nat)
    requires b <= |s|
    ensures s == s[..b] + s[b..]
  {
  }

  lemma HeadTail<T>(s: seq<T>)
    requires s != []
    ensures [s[0]] + s[1..] == s
  {
  }

  /** Leading whitespace does not change the tokens. */
  lemma SplitLStrip(s: string)
    ensures Split(LStrip(s)) == Split(s)
  {
    var t := LStrip(s);
    LeadEndIs(t, 0);
    assert LStrip(t) == t;
  }

  /** A string of whitespace has no tokens. */
  lemma SplitAllSpaces(s: string)
    requires forall i :: 0 <= i < |s| ==> IsSpace(s[i])
    ensures Split(s) == []
  {
    LeadEndIs(s, |s|);
  }

  /** The first token of `u + w` is the first token of `u` when `w` is
      whitespace, and the rest continues after it. */
  lemma SplitAppendStep(u: string, w: string)
    requires forall i :: 0 <= i < |w| ==> IsSpace(w[i])
    requires LeadEnd(u) < |u|
    ensures var t := LStrip(u); var k := TokenEnd(t);
            0 < k <= |t| && Split(u + w) == [t[..k]] + Split(t[k..] + w)
  {
    var s := u + w;
    var a := LeadEnd(u);
    LeadEndIs(s, a);
    var t := u[a..];
    assert s[a..] == t + w;
    var k := TokenEnd(t);
    TokenEndIs(t + w, k);
    assert (t + w)[..k] == t[..k];
    assert (t + w)[k..] == t[k..] + w;
  }

  /** Trailing whitespace does not change the tokens. */
  lemma {:induction false} SplitAppendSpaces(u: string, w: string)
    requires forall i :: 0 <= i < |w| ==> IsSpace(w[i])
    ensures Split(u + w) == Split(u)
    decreases |u|
  {
    if LeadEnd(u) == |u| {
      SplitAllSpaces(u);
      SplitAllSpaces(u + w);
    } else {
      SplitAppendStep(u, w);
      var t := LStrip(u);
      var k := TokenEnd(t);
      SplitAppendSpaces(t[k..], w);
    }
  }

  /** One unfolding of `Split` on a string with a token. */
  lemma SplitUnfold(s: string)
    requires Split(s) != []
    ensures var t := s[LeadEnd(s)..]; var e := TokenEnd(t);
            0 < e && Split(s) == [t[..e]] + Split(t[e..])
  {
  }

  /** A character of the first token is a character of the split string. */
  lemma SplitFirstCharIn(s: string, c: char)
    requires Split(s) != [] && c in Split(s)[0]
    ensures c in s
  {
    SplitUnfold(s);
    var a := LeadEnd(s);
    var t := s[a..];
    var e := TokenEnd(t);
    var w := Split(s)[0];
    assert w == t[..e];
    var j :| 0 <= j < |w| && w[j] == c;
    assert t[j] == c;
    assert s[a + j] == c;
  }

  /** `s.strip().split()` and `s.split()` agree. */
  lemma SplitStrip(s: string)
    ensures Split(Strip(s)) == Split(s)
  {
    if TrailStart(s) <= LeadEnd(s) {
      SplitStripBlank(s);
    } else {
      SplitStripText(s);
    }
  }

  lemma SplitStripBlank(s: string)
    requires TrailStart(s) <= LeadEnd(s)
    ensures Strip(s) == [] && Split(s) == []
  {
    LeadEndIs(s, |s|);
  }

  lemma SplitStripText(s: string)
    requires LeadEnd(s) < TrailStart(s)
    ensures Split(Strip(s)) == Split(s)
  {
    var a := LeadEnd(s);
    var b := TrailStart(s);
    var u := s[..b];
    assert Split(u) == Split(s) by {
      TakeDrop(s, b);
      SplitAppendSpaces(u, s[b..]);
    }
    assert Split(s[a..b]) == Split(u) by {
      LeadEndIs(u, a);
      assert LStrip(u) == s[a..b];
      SplitLStrip(u);
    }
    assert Strip(s) == s[a..b];
  }

  /** Indenting a line does not change its tokens. */
  lemma SplitIndent(s: string)
    ensures Split(" " + s) == Split(s)
  {
    var t := " " + s;
    assert t[1..] == s;
    assert LStrip(t) == LStrip(s);
    SplitLStrip(s);
  }

  /** Index of the first line boundary of `s`, or `|s|`. */
  function LineEnd(s: string): (k: nat)
    ensures k <= |s|
    ensures forall i :: 0 <= i < k ==> !IsLineBreak(s[i])
    ensures k < |s| ==> IsLineBreak(s[k])
  {
    if s == [] || IsLineBreak(s[0]) then 0 else 1 + LineEnd(s[1..])
  }

  /** `LineEnd` is pinned down by its two boundary facts. */
  lemma LineEndIs(s: string, n: nat)
    requires n <= |s|
    requires forall i :: 0 <= i < n ==> !IsLineBreak(s[i])
    requires n < |s| ==> IsLineBreak(s[n])
    ensures LineEnd(s) == n
  {
  }

  /** `s.splitlines()`: the lines of `s` without their boundaries; a final
      boundary does not open an extra empty line and `\r\n` counts once. */
  function SplitLines(s: string): (r: seq<string>)
    ensures |r| <= |s|
    ensures forall i :: 0 <= i < |r| ==> NoLineBreak(r[i])
    decreases |s|
  {
    if s == [] then []
    else
      var k := LineEnd(s);
      if k == |s| then [s]
      else if s[k] == '\r' && k + 1 < |s| && s[k + 1] == '\n' then [s[..k]] + SplitLines(s[k + 2..])
      else [s[..k]] + SplitLines(s[k + 1..])
  }

  /** `splitlines()` undoes joining lines with `"\n"`, provided the last
      line is not empty (a trailing boundary opens no line). */
  lemma {:induction false} SplitLinesJoin(ls: seq<string>)
    requires forall i :: 0 <= i < |ls| ==> NoLineBreak(ls[i])
    requires ls != [] ==> ls[|ls| - 1] != []
    ensures SplitLines(Join(ls, "\n")) == ls
    decreases |ls|
  {
    if |ls| == 1 {
      LineEndIs(ls[0], |ls[0]|);
    } else if |ls| > 1 {
      var l := ls[0];
      var rest := Join(ls[1..], "\n");
      var s := l + "\n" + rest;
      assert Join(ls, "\n") == s;
      assert s[..|l|] == l;
      assert s[|l|] == '\n';
      LineEndIs(s, |l|);
      assert s[|l| + 1..] == rest;
      SplitLinesJoin(ls[1..]);
      assert [l] + ls[1..] == ls;
    }
  }

  /** Index of the first `sep` in `s`, or `|s|`. */
  function IndexOf(s: string, sep: char): (k: nat)
    ensures k <= |s|
    ensures forall i :: 0 <= i < k ==> s[i] != sep
    ensures k < |s| ==> s[k] == sep
  {
    if s == [] || s[0] == sep then 0 else 1 + IndexOf(s[1..], sep)
  }

  /** `s.split(sep)` for a one-character separator: always at least one
      piece, empty pieces kept. */
  function SplitOn(s: string, sep: char): (r: seq<string>)
    ensures |r| >= 1
    ensures forall i :: 0 <= i < |r| ==> sep !in r[i]
    decreases |s|
  {
    var k := IndexOf(s, sep);
    if k == |s| then [s] else [s[..k]] + SplitOn(s[k + 1..], sep)
  }

  /** `Join` peels off its first piece. */
  lemma JoinCons(a: string, rest: seq<string>, sep: string)
    requires rest != []
    ensures Join([a] + rest, sep) == a + sep + Join(rest, sep)
  {
    assert ([a] + rest)[1..] == rest;
  }

  /** Joining the pieces with the separator restores the string. */
  lemma {:induction false} JoinSplitOn(s: string, sep: char)
    ensures Join(SplitOn(s, sep), [sep]) == s
    decreases |s|
  {
    var k := IndexOf(s, sep);
    if k < |s| {
      var tl := s[k + 1..];
      JoinCons(s[..k], SplitOn(tl, sep), [sep]);
      JoinSplitOn(tl, sep);
      assert s == s[..k] + [sep] + tl;
    }
  }

  /** The first separator of `a + [sep] + b` is the one after `a`. */
  lemma IndexOfAfter(a: string, b: string, sep: char)
    requires sep !in a
    ensures IndexOf(a + [sep] + b, sep) == |a|
  {
    var s := a + [sep] + b;
    assert s[|a|] == sep;
    assert forall i :: 0 <= i < |a| ==> s[i] == a[i];
  }

  /** Splitting joined pieces that do not contain the separator gives the
      pieces back. */
  lemma {:induction false} SplitOnJoin(ps: seq<string>, sep: char)
    requires ps != [] && forall i :: 0 <= i < |ps| ==> sep !in ps[i]
    ensures SplitOn(Join(ps, [sep]), sep) == ps
    decreases |ps|
  {
    if |ps| == 1 {
      assert forall i :: 0 <= i < |ps[0]| ==> ps[0][i] != sep;
    } else {
      var rest := Join(ps[1..], [sep]);
      var s := ps[0] + [sep] + rest;
      assert Join(ps, [sep]) == s;
      IndexOfAfter(ps[0], rest, sep);
      assert s[..|ps[0]|] == ps[0];
      assert s[|ps[0]| + 1..] == rest;
      SplitOnJoin(ps[1..], sep);
      assert [ps[0]] + ps[1..] == ps;
    }
  }

  /** `s.split(sep, 1)` for a separator that occurs in `s`: the text before
      its first occurrence and everything after it. */
  function SplitOnce(s: string, sep: char): (r: (string, string))
    requires sep in s
    ensures s == r.0 + [sep] + r.1
    ensures sep !in r.0
  {
    var k := IndexOf(s, sep);
    assert s == s[..k] + [sep] + s[k + 1..];
    (s[..k], s[k + 1..])
  }

  /** The split happens at the first separator: a part before it that has
      no separator is recovered exactly. */
  lemma SplitOnceOf(a: string, b: string, sep: char)
    requires sep !in a
    ensures sep in a + [sep] + b
    ensures SplitOnce(a + [sep] + b, sep) == (a, b)
  {
    var s := a + [sep] + b;
    assert s[|a|] == sep;
    assert forall i :: 0 <= i < |a| ==> s[i] == a[i];
    var k := IndexOf(s, sep);
    assert k == |a|;
    assert s[..k] == a;
    assert s[k + 1..] == b;
  }

  predicate IsUpper(c: char) {
    'A' <= c <= 'Z'
  }

  /** `s.lower()` on ASCII letters; other characters are left as they are. */
  function AsciiLower(s: string): (r: string)
    ensures |r| == |s|
    ensures forall i :: 0 <= i < |s| ==> r[i] == LowerChar(s[i])
  {
    if s == [] then [] else [LowerChar(s[0])] + AsciiLower(s[1..])
  }

  /** One character of `lower()`: `A`-`Z` become `a`-`z`. */
  function LowerChar(c: char): (d: char)
    ensures IsUpper(c) ==> d as int == c as int + 32
    ensures !IsUpper(c) ==> d == c
    ensures IsSpace(d) <==> IsSpace(c)
  {
    if IsUpper(c) then (c as int + 32) as char else c
  }

  /** Lowering changes letters only, so it never turns whitespace into
      something else or back: `s.lower().strip()` equals
      `s.strip().lower()`. */
  lemma StripLower(s: string)
    ensures Strip(AsciiLower(s)) == AsciiLower(Strip(s))
  {
    LowerSpaces(s);
    StripAlike(s, AsciiLower(s));
    var a := LeadEnd(s);
    var b := TrailStart(s);
    if a < b {
      assert Strip(s) == s[a..b];
      LowerSlice(s, a, b);
    } else {
      assert Strip(s) == [];
    }
  }

  lemma LowerSpaces(s: string)
    ensures forall i :: 0 <= i < |s| ==> (IsSpace(AsciiLower(s)[i]) <==> IsSpace(s[i]))
  {
  }

  /** Lowering works character by character, so it commutes with slicing. */
  lemma LowerSlice(s: string, a: nat, b: nat)
    requires a <= b <= |s|
    ensures AsciiLower(s[a..b]) == AsciiLower(s)[a..b]
  {
    var t := s[a..b];
    var w := AsciiLower(s)[a..b];
    forall i | 0 <= i < |t|
      ensures w[i] == LowerChar(t[i])
    {
      assert t[i] == s[a + i];
    }
    LowerPointwise(t, w);
  }

  /** A string that lowers `x` character by character is `AsciiLower(x)`. */
  lemma LowerPointwise(x: string, y: string)
    requires |y| == |x|
    requires forall i :: 0 <= i < |x| ==> y[i] == LowerChar(x[i])
    ensures y == AsciiLower(x)
  {
    var r := AsciiLower(x);
    assert forall i :: 0 <= i < |x| ==> r[i] == y[i];
  }

  /** Two strings with whitespace at the same positions strip to the same
      window. */
  lemma StripAlike(s: string, u: string)
    requires |u| == |s|
    requires forall i :: 0 <= i < |s| ==> (IsSpace(u[i]) <==> IsSpace(s[i]))
    ensures Strip(u) == if LeadEnd(s) < TrailStart(s) then u[LeadEnd(s)..TrailStart(s)] else []
  {
    LeadEndIs(u, LeadEnd(s));
    TrailStartIs(u, TrailStart(s));
  }
}

=== FILE: resolve.dfy ===
/** What `search_similar_interactive` (aur-helper.py:316-369) does with the
    parsed records: the list of distinct names in first-seen order, the
    name-to-record table in which the last record wins, the truncated
    description shown in the listing, and the rule that turns the typed
    answer into a choice. The fuzzy matcher itself is a parameter. */
module Resolve {
  import opened Wrappers
  import opened PyStr
  import opened PyInt
  import opened SearchParser

  /** `[pkg["name"] for pkg in packages]` */
  function Names(ps: seq<Package>): (r: seq<string>)
    ensures |r| == |ps|
    ensures forall i :: 0 <= i < |ps| ==> r[i] == ps[i].name
  {
    seq(|ps|, i requires 0 <= i < |ps| => ps[i].name)
  }

  predicate Distinct<T(==)>(xs: seq<T>) {
    forall i, j :: 0 <= i < j < |xs| ==> xs[i] != xs[j]
  }

  /** Position of the first occurrence of `x`. */
  function FirstIndex<T(==)>(xs: seq<T>, x: T): (k: nat)
    requires x in xs
    ensures k < |xs| && xs[k] == x
    ensures forall i :: 0 <= i < k ==> xs[i] != x
  {
    if xs[0] == x then 0 else 1 + FirstIndex(xs[1..], x)
  }

  /** The first occurrence of an element of a prefix lies in that prefix. */
  lemma FirstIndexPrefix<T>(xs: seq<T>, m: nat, x: T)
    requires m <= |xs| && x in xs[..m]
    ensures FirstIndex(xs, x) == FirstIndex(xs[..m], x)
  {
    var pre := xs[..m];
    var k := FirstIndex(pre, x);
    forall i | 0 <= i <= k
      ensures xs[i] == pre[i]
    {
    }
    FirstIndexIs(xs, x, k);
  }

  /** `FirstIndex` is pinned down by its two facts. */
  lemma {:induction false} FirstIndexIs<T>(xs: seq<T>, x: T, k: nat)
    requires k < |xs| && xs[k] == x
    requires forall i :: 0 <= i < k ==> xs[i] != x
    ensures FirstIndex(xs, x) == k
  {
    if k > 0 {
      assert xs[1..][k - 1] == x;
      FirstIndexIs(xs[1..], x, k - 1);
    }
  }

  /** `list(dict.fromkeys(xs))`: every element once, at its first position. */
  function Dedupe(xs: seq<string>): (r: seq<string>)
    ensures Distinct(r)
    ensures forall x :: x in r <==> x in xs
    ensures |r| <= |xs|
  {
    if xs == [] then []
    else
      var front := Dedupe(xs[..|xs| - 1]);
      var x := xs[|xs| - 1];
      assert xs == xs[..|xs| - 1] + [x];
      if x in front then front else front + [x]
  }

  predicate AllIn(r: seq<string>, xs: seq<string>) {
    forall k :: 0 <= k < |r| ==> r[k] in xs
  }

  /** `r` lists elements of `xs` in the order of their first occurrence. */
  predicate FirstSeenOrder(xs: seq<string>, r: seq<string>)
    requires AllIn(r, xs)
  {
    forall i, j :: 0 <= i < j < |r| ==> FirstIndex(xs, r[i]) < FirstIndex(xs, r[j])
  }

  /** Extending the list does not move first occurrences already in it. */
  lemma FirstSeenPrefix(xs: seq<string>, m: nat, r: seq<string>)
    requires m <= |xs| && AllIn(r, xs[..m]) && FirstSeenOrder(xs[..m], r)
    ensures AllIn(r, xs) && FirstSeenOrder(xs, r)
  {
    forall k | 0 <= k < |r|
      ensures r[k] in xs && FirstIndex(xs, r[k]) == FirstIndex(xs[..m], r[k])
    {
      FirstIndexPrefix(xs, m, r[k]);
    }
  }

  /** An element first seen after all of `r` may follow it. */
  lemma FirstSeenAppend(xs: seq<string>, r: seq<string>, x: string)
    requires AllIn(r, xs) && FirstSeenOrder(xs, r) && x in xs
    requires forall k :: 0 <= k < |r| ==> FirstIndex(xs, r[k]) < FirstIndex(xs, x)
    ensures AllIn(r + [x], xs) && FirstSeenOrder(xs, r + [x])
  {
    var r2 := r + [x];
    forall i, j | 0 <= i < j < |r2|
      ensures FirstIndex(xs, r2[i]) < FirstIndex(xs, r2[j])
    {
      assert r2[i] == r[i];
    }
  }

  /** The distinct names come out in order of first appearance. */
  lemma {:induction false} DedupeFirstSeen(xs: seq<string>)
    ensures AllIn(Dedupe(xs), xs) && FirstSeenOrder(xs, Dedupe(xs))
  {
    if xs != [] {
      var n := |xs| - 1;
      var init := xs[..n];
      var front := Dedupe(init);
      DedupeFirstSeen(init);
      assert xs == init + [xs[n]];
      FirstSeenPrefix(xs, n, front);
      if xs[n] !in front {
        FirstIndexIs(xs, xs[n], n);
        forall k | 0 <= k < |front|
          ensures FirstIndex(xs, front[k]) < n
        {
          FirstIndexPrefix(xs, n, front[k]);
        }
        FirstSeenAppend(xs, front, xs[n]);
      }
    }
  }

  /** Position of the last record named `name`. */
  function LastIndex(ps: seq<Package>, name: string): (k: nat)
    requires name in Names(ps)
    ensures k < |ps| && ps[k].name == name
    ensures forall j :: k < j < |ps| ==> ps[j].name != name
  {
    var n := |ps| - 1;
    if ps[n].name == name then n
    else
      assert Names(ps) == Names(ps[..n]) + [ps[n].name];
      LastIndex(ps[..n], name)
  }

  /** `{pkg["name"]: pkg for pkg in packages}`: each name maps to the last
      record that carries it. */
  function Lookup(ps: seq<Package>): (r: map<string, Package>)
    ensures forall name :: name in r <==> name in Names(ps)
    ensures forall name :: name in r ==> r[name] == ps[LastIndex(ps, name)]
  {
    if ps == [] then map[]
    else
      var n := |ps| - 1;
      assert Names(ps) == Names(ps[..n]) + [ps[n].name];
      Lookup(ps[..n])[ps[n].name := ps[n]]
  }

  /** Every record of a name that never reappears later is the one looked up. */
  lemma LookupLastWins(ps: seq<Package>, i: nat)
    requires i < |ps|
    requires forall j :: i < j < |ps| ==> ps[j].name != ps[i].name
    ensures ps[i].name in Lookup(ps) && Lookup(ps)[ps[i].name] == ps[i]
  {
    var name := ps[i].name;
    assert Names(ps)[i] == name;
    var k := LastIndex(ps, name);
    assert k == i;
  }

  /** Every distinct name has an entry, so the listing's `.get` default is
      never used. */
  lemma LookupCoversNames(ps: seq<Package>)
    ensures forall name :: name in Dedupe(Names(ps)) ==> name in Lookup(ps)
  {
  }

  /** The description cell of the listing (line 347): at most 40
      characters of the text, with `...` when something was cut off. */
  function Truncate(d: string): (r: string)
    ensures |d| <= 40 ==> r == d
    ensures |d| > 40 ==> |r| == 43 && StartsWith(d, r[..40]) && EndsWith(r, "...")
  {
    if |d| > 40 then d[..40] + "..." else d
  }

  /** What the typed answer amounts to. The Python function returns the
      name for `Chosen` and `None` in the three other cases, which print
      different messages. */
  datatype Selection = Cancelled | Chosen(name: string) | OutOfRange(n: int) | NotANumber

  /** Lines 351-365: the answer is stripped and then read by `Choose`. */
  function Select(raw: string, similar: seq<string>): (r: Selection)
    ensures r.Chosen? ==> r.name in similar
    ensures Strip(raw) == "0" || AsciiLower(Strip(raw)) == "cancel" ==> r == Cancelled
    ensures var c := Strip(raw); var n := ParseInt(c);
            c != "0" && AsciiLower(c) != "cancel" && n.Some? && 1 <= n.value <= |similar| ==>
              r == Chosen(similar[n.value - 1])
    ensures var c := Strip(raw);
            c != "0" && AsciiLower(c) != "cancel" && ParseInt(c).None? ==> r == NotANumber
    ensures r == Choose(Strip(raw), similar)
  {
    Choose(Strip(raw), similar)
  }

  /** Lines 352-365 on the stripped answer `choice`: `0` or any casing of
      `cancel` cancels; anything else is read by `int()`. */
  function Choose(choice: string, similar: seq<string>): (r: Selection)
    ensures choice == "0" || AsciiLower(choice) == "cancel" ==> r == Cancelled
    ensures choice != "0" && AsciiLower(choice) != "cancel" ==> r == ChooseNumber(ParseInt(choice), similar)
    ensures r.Chosen? ==> r.name in similar
    ensures r.OutOfRange? ==> r.n < 1 || r.n > |similar|
  {
    if choice == "0" || AsciiLower(choice) == "cancel" then Cancelled
    else ChooseNumber(ParseInt(choice), similar)
  }

  /** Lines 356-365 on what `int()` made of the answer: no number is an
      error, a number from 1 to the number of matches picks the match
      shown with it, and any other number is out of range. */
  function ChooseNumber(n: Option<int>, similar: seq<string>): (r: Selection)
    ensures n.None? <==> r == NotANumber
    ensures n.Some? && 1 <= n.value <= |similar| ==> r == Chosen(similar[n.value - 1])
    ensures n.Some? && !(1 <= n.value <= |similar|) ==> r == OutOfRange(n.value)
    ensures r != Cancelled
  {
    match n
    case None => NotANumber
    case Some(k) => if 1 <= k <= |similar| then Chosen(similar[k - 1]) else OutOfRange(k)
  }

  /** Typing the number shown next to a name selects that name. */
  lemma SelectShownNumber(similar: seq<string>, k: nat)
    requires 1 <= k <= |similar|
    ensures Select(NatToDecimal(k), similar) == Chosen(similar[k - 1])
  {
    var s := NatToDecimal(k);
    ShownNumberIsPlain(k);
    ParseNatToDecimal(k);
    assert Strip(s) == s;
  }

  /** A shown number is stripped already and is neither `0` nor `cancel`. */
  lemma ShownNumberIsPlain(k: nat)
    requires k >= 1
    ensures var s := NatToDecimal(k);
            Strip(s) == s && s != "0" && AsciiLower(s) != "cancel"
  {
    var s := NatToDecimal(k);
    assert Trimmed(s) by {
      assert IsDigit(s[0]) && IsDigit(s[|s| - 1]);
    }
    assert DecimalValue("0") == 0;
    DigitsNotCancel(s);
  }

  /** Lowering keeps a leading digit, so digits never spell `cancel`. */
  lemma DigitsNotCancel(s: string)
    requires s != [] && IsDigit(s[0])
    ensures AsciiLower(s) != "cancel"
  {
    assert AsciiLower(s)[0] == s[0];
  }

  /** The shape of `get_close_matches(query, candidates, n, cutoff)`
      assumed here: at most `n` distinct candidates. Its scoring is not
      modelled. */
  predicate CloseMatchShape(similar: seq<string>, candidates: seq<string>, n: int) {
    |similar| <= n && Distinct(similar) && forall x :: x in similar ==> x in candidates
  }

  /** `search_similar_interactive` once the search is done: nothing to offer
      when there are no records or no close matches, otherwise the name the
      answer selects. */
  function SearchSimilar(packages: seq<Package>, similar: seq<string>, raw: string): (r: Option<string>)
    ensures r.Some? ==> r.value in similar
    ensures packages == [] || similar == [] ==> r == None
    ensures packages != [] && similar != [] ==>
              (r.Some? <==> Select(raw, similar).Chosen?)
              && (r.Some? ==> r.value == Select(raw, similar).name)
  {
    if packages == [] || similar == [] then None
    else
      match Select(raw, similar)
      case Chosen(name) => Some(name)
      case _ => None
  }

  /** The chosen name always has a record to describe it. */
  lemma SelectedHasRecord(packages: seq<Package>, similar: seq<string>, raw: string, n: int)
    requires CloseMatchShape(similar, Dedupe(Names(packages)), n)
    ensures var r := SearchSimilar(packages, similar, raw);
            r.Some? ==> r.value in Lookup(packages) && Lookup(packages)[r.value].name == r.value
  {
  }
}

=== FILE: search_parser.dfy ===
/** The parsing loop of `search_packages` (aur-helper.py:276-314): the text a
    `<manager> -Ss <query>` search prints is cut into lines, and every line
    whose first token has the form `repo/name` and is followed by a version
    token becomes one package record. The model follows the code, not the
    idealised format: the line is stripped before the "not indented" test,
    so an indented line can be a header too. */
module SearchParser {
  import opened Wrappers
  import opened PyStr

  /** One search hit: the `{"name", "repo", "version", "description"}` dict. */
  datatype Package = Package(name: string, repo: string, version: string, description: string)

  /** The fields a header line `repo/name version ...` carries. */
  datatype Header = Header(repo: string, name: string, version: string)

  /** Lines 288-296 applied to a stripped line `line`: the header it is read
      as, if any. The `"unknown"` version fallback is dead code, since two
      tokens are required first. */
  function HeaderOf(line: string): (h: Option<Header>)
    ensures h.Some? ==>
              && |Split(line)| >= 2
              && h.value.repo + "/" + h.value.name == Split(line)[0]
              && '/' !in h.value.repo
              && h.value.version == Split(line)[1]
  {
    var parts := Split(line);
    if '/' in line && !StartsWith(line, " ") then
      if |parts| >= 2 then
        var repoPackage := parts[0];
        var version := if |parts| > 1 then parts[1] else "unknown";
        if '/' in repoPackage then
          var (repo, name) := SplitOnce(repoPackage, '/');
          Some(Header(repo, name, version))
        else None
      else None
    else None
  }

  /** A raw line is read as a header exactly when its first token contains a
      `/` and a second token follows: the other tests on lines 288 and 292
      never fail on such a line, whatever its indentation. */
  lemma HeaderOfLine(raw: string)
    ensures var parts := Split(raw);
            HeaderOf(Strip(raw)).Some? <==> |parts| >= 2 && '/' in parts[0]
  {
    var line := Strip(raw);
    SplitStrip(raw);
    var parts := Split(line);
    if |parts| >= 2 && '/' in parts[0] {
      SplitFirstCharIn(line, '/');
      StartsWithChar(line, ' ');
    }
    var h := HeaderOf(line);
    if h.Some? {
      var tok := h.value.repo + "/" + h.value.name;
      assert tok[|h.value.repo|] == '/';
      assert '/' in parts[0];
    }
  }

  /** What the loop body reads from one line: the raw line (for the
      description test), `line.strip()` and the header it is read as. */
  datatype LineView = LineView(raw: string, stripped: string, header: Option<Header>)

  function View(raw: string): (v: LineView)
    ensures v.raw == raw && v.stripped == Strip(raw)
  {
    var line := Strip(raw);
    LineView(raw, line, HeaderOf(line))
  }

  function Views(lines: seq<string>): (vs: seq<LineView>)
    ensures |vs| == |lines|
  {
    MapSeq(View, lines)
  }

  /** `[f(x) for x in xs]` */
  function MapSeq<A, B>(f: A -> B, xs: seq<A>): (r: seq<B>)
    ensures |r| == |xs|
    ensures forall i :: 0 <= i < |xs| ==> r[i] == f(xs[i])
  {
    seq(|xs|, i requires 0 <= i < |xs| => f(xs[i]))
  }

  lemma MapSeqThree<A, B>(f: A -> B, a: A, b: A, c: A)
    ensures MapSeq(f, [a, b, c]) == [f(a), f(b), f(c)]
  {
  }

  /** The description of the record read from line `i`: the next raw line,
      stripped, when it begins with a space; otherwise empty. */
  function DescriptionAfter(vs: seq<LineView>, i: nat): string
    requires i < |vs|
  {
    if i + 1 < |vs| && StartsWith(vs[i + 1].raw, " ") then vs[i + 1].stripped else ""
  }

  /** The description in terms of the output's text lines: the next line,
      stripped, when it begins with a space; so it never has whitespace at
      either end. */
  lemma DescriptionOfLines(lines: seq<string>, i: nat)
    requires i < |lines|
    ensures var d := DescriptionAfter(Views(lines), i);
            && d == (if i + 1 < |lines| && StartsWith(lines[i + 1], " ") then Strip(lines[i + 1]) else "")
            && Trimmed(d)
  {
    if i + 1 < |lines| {
      assert Views(lines)[i + 1] == View(lines[i + 1]);
    }
  }

  /** The loop body for line `i` (lines 287-311): the record it appends, if
      any, which carries the header's fields and the description below it. */
  function RecordAt(vs: seq<LineView>, i: nat): (r: Option<Package>)
    requires i < |vs|
    ensures r.Some? <==> vs[i].header.Some?
    ensures r.Some? ==>
              && r.value.repo == vs[i].header.value.repo
              && r.value.name == vs[i].header.value.name
              && r.value.version == vs[i].header.value.version
              && r.value.description == DescriptionAfter(vs, i)
  {
    match vs[i].header
    case Some(h) => Some(Package(h.name, h.repo, h.version, DescriptionAfter(vs, i)))
    case None => None
  }

  /** The record of line `i` in terms of the output's text lines: there is
      one exactly when the line's first token contains `/` and a second
      token follows; the repo is the first token up to its first `/`, the
      name the rest of it, the version the second token; the description
      is the next line, stripped, when that line begins with a space, and
      empty otherwise. */
  lemma RecordOfLine(lines: seq<string>, i: nat)
    requires i < |lines|
    ensures var r := RecordAt(Views(lines), i); var parts := Split(lines[i]);
            && (r.Some? <==> |parts| >= 2 && '/' in parts[0])
            && (r.Some? ==>
                  && r.value.repo + "/" + r.value.name == parts[0]
                  && '/' !in r.value.repo
                  && r.value.version == parts[1]
                  && r.value.description ==
                       if i + 1 < |lines| && StartsWith(lines[i + 1], " ") then Strip(lines[i + 1]) else "")
  {
    var vs := Views(lines);
    assert vs[i] == View(lines[i]);
    if i + 1 < |lines| {
      assert vs[i + 1] == View(lines[i + 1]);
    }
    HeaderOfLine(lines[i]);
    SplitStrip(lines[i]);
  }

  /** The records appended while scanning `vs[..n]`, in order. */
  function ParseUpTo(vs: seq<LineView>, n: nat): (r: seq<Package>)
    requires n <= |vs|
    ensures |r| <= n
  {
    if n == 0 then []
    else
      var front := ParseUpTo(vs, n - 1);
      match RecordAt(vs, n - 1)
      case Some(p) => front + [p]
      case None => front
  }

  /** The whole scan over the lines of the output. */
  function ParseLines(lines: seq<string>): seq<Package> {
    var vs := Views(lines);
    ParseUpTo(vs, |vs|)
  }

  /** The scanning loop itself, `while i < len(lines): ... i += 1`, over
      the lines as the loop body reads them. */
  method ParseSearchLines(vs: seq<LineView>) returns (packages: seq<Package>)
    ensures packages == ParseUpTo(vs, |vs|)
  {
    packages := [];
    var i := 0;
    while i < |vs|
      invariant i <= |vs|
      invariant packages == ParseUpTo(vs, i)
    {
      var r := RecordAt(vs, i);
      if r.Some? {
        packages := packages + [r.value];
      }
      i := i + 1;
    }
  }

  /** `search_packages` once the command is done: a failed command or empty
      output yields no records; otherwise the output's lines are scanned. */
  function SearchPackages(success: bool, output: string): (r: seq<Package>)
    ensures !success || output == [] ==> r == []
    ensures |r| <= |output|
  {
    if !success || output == [] then [] else ParseLines(SplitLines(output))
  }

  /** A successful search whose output is `lines` joined by newlines yields
      exactly the records of the scan over those lines. */
  lemma SearchPackagesOfLines(lines: seq<string>)
    requires lines != [] && lines[|lines| - 1] != []
    requires forall i :: 0 <= i < |lines| ==> NoLineBreak(lines[i])
    ensures SearchPackages(true, Join(lines, "\n")) == ParseLines(lines)
  {
    JoinNonEmpty(lines, "\n");
    SplitLinesJoin(lines);
  }

  /** The indices of the lines among `lines[..n]` that yield a record, in
      increasing order. */
  function HeaderIndices(vs: seq<LineView>, n: nat): (ix: seq<nat>)
    requires n <= |vs|
    ensures forall k :: 0 <= k < |ix| ==> ix[k] < n && RecordAt(vs, ix[k]).Some?
    ensures forall k, l :: 0 <= k < l < |ix| ==> ix[k] < ix[l]
    ensures forall i :: 0 <= i < n && RecordAt(vs, i).Some? ==> i in ix
  {
    if n == 0 then []
    else
      var front := HeaderIndices(vs, n - 1);
      if RecordAt(vs, n - 1).Some? then front + [n - 1] else front
  }

  /** One record per header line, in input order: the `k`-th record is the
      record of the `k`-th header line. */
  lemma {:induction false} ParseFollowsHeaders(vs: seq<LineView>, n: nat)
    requires n <= |vs|
    ensures var ps := ParseUpTo(vs, n); var ix := HeaderIndices(vs, n);
            |ps| == |ix| && forall k :: 0 <= k < |ix| ==> RecordAt(vs, ix[k]) == Some(ps[k])
  {
    if n > 0 {
      ParseFollowsHeaders(vs, n - 1);
    }
  }

  /** Indenting a line does not change whether, or how, it is read as a
      header: the "not indented" test runs on the stripped line. */
  lemma IndentedHeader(raw: string)
    ensures HeaderOf(Strip(" " + raw)).Some? <==> HeaderOf(Strip(raw)).Some?
  {
    HeaderOfLine(raw);
    HeaderOfLine(" " + raw);
    SplitIndent(raw);
  }

  /** Only a leading space marks a description line; a tab does not. */
  lemma TabIsNoDescription(lines: seq<string>, i: nat)
    requires i + 1 < |lines| && lines[i + 1] != [] && lines[i + 1][0] == '\t'
    ensures DescriptionAfter(Views(lines), i) == ""
  {
    StartsWithChar(lines[i + 1], ' ');
  }

  /** Two words joined by a space are already stripped and split back. */
  lemma WordPair(a: string, b: string)
    requires IsWord(a) && IsWord(b)
    ensures Strip(a + " " + b) == a + " " + b
    ensures Split(a + " " + b) == [a, b]
  {
    var text := a + " " + b;
    assert text == Join([a, b], " ");
    assert AllWords([a, b]);
    SplitJoin([a, b]);
    assert text[0] == a[0] && text[|text| - 1] == b[|b| - 1];
    assert Trimmed(text);
  }

  /** A header line `repo/name version`, as `-Ss` prints it, is read with
      exactly those fields. */
  lemma HeaderOfWords(repo: string, name: string, version: string)
    requires IsWord(repo + "/" + name) && IsWord(version) && '/' !in repo
    ensures HeaderOf(Strip(repo + "/" + name + " " + version))
         == Some(Header(repo, name, version))
  {
    var tok := repo + "/" + name;
    var text := tok + " " + version;
    assert text == repo + "/" + name + " " + version;
    WordPair(tok, version);
    HeaderOfLine(text);
    SplitOnceOf(repo, name, '/');
  }

  /** Leading padding is dropped by `strip()` and ignored by `split()`. */
  lemma StripPadding(pad: string, text: string)
    requires forall i :: 0 <= i < |pad| ==> pad[i] == ' '
    requires text != [] && Trimmed(text)
    ensures Strip(pad + text) == text
    ensures Split(pad + text) == Split(text)
  {
    var raw := pad + text;
    LeadEndIs(raw, |pad|);
    assert raw[|raw| - 1] == text[|text| - 1];
    assert TrailStart(raw) == |raw|;
    assert raw[|pad|..|raw|] == text;
    SplitStrip(raw);
  }

  /** Three lines read as header, description, header yield two records,
      the first carrying the description and the last none. */
  lemma ThreeLines(vs: seq<LineView>)
    requires |vs| == 3
    requires vs[0].header.Some? && vs[1].header.None? && vs[2].header.Some?
    requires StartsWith(vs[1].raw, " ") && !StartsWith(vs[2].raw, " ")
    ensures var h0 := vs[0].header.value; var h2 := vs[2].header.value;
            ParseUpTo(vs, 3) == [Package(h0.name, h0.repo, h0.version, vs[1].stripped),
                                 Package(h2.name, h2.repo, h2.version, "")]
  {
    assert ParseUpTo(vs, 1) == [RecordAt(vs, 0).value];
    assert ParseUpTo(vs, 2) == ParseUpTo(vs, 1);
  }

  /** The text of a header line `repo/name version`. */
  function HeaderText(repo: string, name: string, version: string): string {
    repo + "/" + name + " " + version
  }

  /** A header line as `-Ss` prints it is viewed with its fields and does not
      begin with a space. */
  lemma HeaderView(repo: string, name: string, version: string)
    requires IsWord(repo + "/" + name) && IsWord(version) && '/' !in repo
    ensures View(HeaderText(repo, name, version)).header == Some(Header(repo, name, version))
    ensures !StartsWith(HeaderText(repo, name, version), " ")
  {
    HeaderOfWords(repo, name, version);
    var line := HeaderText(repo, name, version);
    assert line[0] == (repo + "/" + name)[0];
    StartsWithChar(line, ' ');
  }

  /** An indented description line without a `/` is viewed as its stripped
      text and is no header. */
  lemma DescriptionView(pad: string, text: string)
    requires pad != [] && forall i :: 0 <= i < |pad| ==> pad[i] == ' '
    requires text != [] && Trimmed(text) && '/' !in text
    ensures View(pad + text) == LineView(pad + text, text, None)
    ensures StartsWith(pad + text, " ")
  {
    StripPadding(pad, text);
    assert (pad + text)[0] == ' ';
    StartsWithChar(pad + text, ' ');
  }

  /** The layout `-Ss` prints: a header, its indented description, then a
      last header without one. Two records come out, and the description
      lands on the first. */
  lemma HeaderDescriptionHeader(repo1: string, name1: string, version1: string,
                                pad: string, text: string,
                                repo2: string, name2: string, version2: string)
    requires IsWord(repo1 + "/" + name1) && IsWord(version1) && '/' !in repo1
    requires pad != [] && forall i :: 0 <= i < |pad| ==> pad[i] == ' '
    requires text != [] && Trimmed(text) && '/' !in text
    requires IsWord(repo2 + "/" + name2) && IsWord(version2) && '/' !in repo2
    ensures ParseLines([HeaderText(repo1, name1, version1), pad + text, HeaderText(repo2, name2, version2)])
         == [Package(name1, repo1, version1, text), Package(name2, repo2, version2, "")]
  {
    var lines := [HeaderText(repo1, name1, version1), pad + text, HeaderText(repo2, name2, version2)];
    HeaderView(repo1, name1, version1);
    DescriptionView(pad, text);
    HeaderView(repo2, name2, version2);
    ViewsOfThree(lines[0], lines[1], lines[2]);
    ThreeLines(Views(lines));
  }

  lemma ViewsOfThree(a: string, b: string, c: string)
    ensures Views([a, b, c]) == [View(a), View(b), View(c)]
  {
    MapSeqThree(View, a, b, c);
  }
}

=== FILE: settings.dfy ===
/** The settings of the `Config` class (aur-helper.py:61-101) and what the
    settings menu (aur-helper.py:659-703) does to them. The settings are
    the JSON object of the settings file, merged over the defaults; the
    file itself and the prompts are parameters: the parsed file, when it
    holds a JSON object, and the lines typed at the menu. */
module Settings {
  import opened Wrappers
  import opened PyStr
  import opened PyInt
  import opened Commands

  /** A JSON value as `json.load` returns it. Arrays and objects are kept
      only as their number of members, which is all that is read of them. */
  datatype Value = Null | Bool(b: bool) | Int(i: int) | Real(r: real) | Str(s: string) | Container(size: nat)

  type Config = map<string, Value>

  /** Python truthiness of a JSON value. */
  predicate Truthy(v: Value) {
    match v
    case Null => false
    case Bool(b) => b
    case Int(i) => i != 0
    case Real(r) => r != 0.0
    case Str(s) => s != []
    case Container(n) => n > 0
  }

  /** `config.get(key)`: a missing key reads as `None`. */
  function Get(c: Config, key: string): Value {
    if key in c then c[key] else Null
  }

  /** A setting read as a condition, as `if self.config.get(key)` does. */
  predicate Flag(c: Config, key: string) {
    Truthy(Get(c, key))
  }

  /** `default_config` (lines 66-74). */
  function Defaults(): Config {
    map[
      "default_manager" := Str("pacman"),
      "auto_confirm" := Bool(false),
      "show_progress" := Bool(true),
      "backup_before_operations" := Bool(true),
      "max_search_results" := Int(10),
      "search_cutoff" := Real(0.3),
      "colors_enabled" := Bool(true)
    ]
  }

  /** `load_config` (lines 77-86): the file's object over the defaults,
      its entries winning; the defaults alone when there is no file or it
      does not hold a JSON object. */
  function LoadConfig(loaded: Option<Config>): (c: Config)
    ensures forall k :: k in c <==> k in Defaults() || (loaded.Some? && k in loaded.value)
    ensures forall k :: k in c ==>
              c[k] == if loaded.Some? && k in loaded.value then loaded.value[k] else Defaults()[k]
  {
    match loaded
    case None => Defaults()
    case Some(file) => Defaults() + file
  }

  /** Settings as `save_config` writes them load back unchanged, so saving
      and loading again is a fixed point. */
  lemma SaveLoad(c: Config)
    requires forall k :: k in Defaults() ==> k in c
    ensures LoadConfig(Some(c)) == c
  {
    var r := LoadConfig(Some(c));
    assert forall k :: k in r <==> k in c;
    assert forall k :: k in r ==> r[k] == c[k];
  }

  /** A loaded configuration holds every default key. */
  lemma LoadKeepsKeys(loaded: Option<Config>)
    ensures forall k :: k in Defaults() ==> k in LoadConfig(loaded)
    ensures LoadConfig(Some(LoadConfig(loaded))) == LoadConfig(loaded)
  {
    SaveLoad(LoadConfig(loaded));
  }

  /** `set(key, not get(key))`: the setting becomes the negation of its
      truth value, a proper boolean; nothing else changes. */
  function Toggle(c: Config, key: string): (r: Config)
    ensures key in r && r[key].Bool? && (Flag(r, key) <==> !Flag(c, key))
    ensures forall k :: k != key ==> (k in r <==> k in c) && (k in c ==> r[k] == c[k])
  {
    c[key := Bool(!Flag(c, key))]
  }

  /** Toggling twice leaves the truth value where it was, as a boolean. */
  lemma ToggleTwice(c: Config, key: string)
    ensures Toggle(Toggle(c, key), key) == c[key := Bool(Flag(c, key))]
    ensures key in c && c[key].Bool? ==> Toggle(Toggle(c, key), key) == c
  {
    var t := Toggle(Toggle(c, key), key);
    assert Flag(t, key) == Flag(c, key);
    if key in c && c[key].Bool? {
      assert c[key] == Bool(Flag(c, key));
    }
  }

  /** The menu entries that read a second line. */
  predicate Asks(choice: string) {
    choice == "1" || choice == "5"
  }

  /** One pass through the menu loop for an entry other than `0`; `choice`
      is already stripped and `answer` is the second line for entries 1
      and 5. Unknown entries change nothing. */
  function MenuStep(c: Config, choice: string, answer: string): (r: Config)
    ensures choice == "1" ==> r == SetManager(c, answer)
    ensures choice == "2" ==> r == Toggle(c, "auto_confirm")
    ensures choice == "3" ==> r == Toggle(c, "show_progress")
    ensures choice == "4" ==> r == Toggle(c, "backup_before_operations")
    ensures choice == "5" ==> r == SetMaxResults(c, answer)
    ensures choice == "6" ==> r == Toggle(c, "colors_enabled")
    ensures choice !in ["1", "2", "3", "4", "5", "6"] ==> r == c
  {
    if choice == "1" then SetManager(c, answer)
    else if choice == "2" then Toggle(c, "auto_confirm")
    else if choice == "3" then Toggle(c, "show_progress")
    else if choice == "4" then Toggle(c, "backup_before_operations")
    else if choice == "5" then SetMaxResults(c, answer)
    else if choice == "6" then Toggle(c, "colors_enabled")
    else c
  }

  /** Entry 1 (lines 676-680): the answer, stripped and lowered, becomes
      the default manager when it names a supported manager; otherwise
      nothing changes. */
  function SetManager(c: Config, answer: string): (r: Config)
    ensures var p := ParseManager(AsciiLower(Strip(answer)));
            p.Some? ==> r == c["default_manager" := Str(ManagerName(p.value))]
    ensures ParseManager(AsciiLower(Strip(answer))).None? ==> r == c
    ensures Get(r, "default_manager") != Get(c, "default_manager") ==>
              Get(r, "default_manager").Str? && ParseManager(Get(r, "default_manager").s).Some?
    ensures forall k :: k != "default_manager" ==> (k in r <==> k in c) && (k in c ==> r[k] == c[k])
  {
    var name := AsciiLower(Strip(answer));
    if ParseManager(name).Some? then c["default_manager" := Str(name)] else c
  }

  /** Entry 5 (lines 691-697): an answer that `int()` reads as a number
      from 1 to 50 becomes the result count; anything else changes
      nothing. */
  function SetMaxResults(c: Config, answer: string): (r: Config)
    ensures var n := ParseInt(answer);
            n.Some? && 1 <= n.value <= 50 ==> r == c["max_search_results" := Int(n.value)]
    ensures r != c ==> ParseInt(answer).Some? && 1 <= ParseInt(answer).value <= 50
    ensures Get(r, "max_search_results") != Get(c, "max_search_results") ==>
              Get(r, "max_search_results").Int? && 1 <= Get(r, "max_search_results").i <= 50
    ensures forall k :: k != "max_search_results" ==> (k in r <==> k in c) && (k in c ==> r[k] == c[k])
  {
    match ParseInt(answer)
    case None => c
    case Some(n) => if 1 <= n <= 50 then c["max_search_results" := Int(n)] else c
  }

  /** The raw answer `"\x1c5"` changes nothing: `int()` does not skip the
      separator U+001C, although `strip()` would. */
  lemma SetMaxResultsSeparator(c: Config)
    ensures SetMaxResults(c, [28 as char, '5']) == c
  {
    SeparatorIsNoIntSpace();
  }

  /** What one menu step may change: the default manager only through
      entry 1 and only to a supported manager, the result count only
      through entry 5 and only to a number from 1 to 50, and nothing the
      menu does not offer. */
  lemma MenuStepChanges(c: Config, choice: string, answer: string)
    ensures var r := MenuStep(c, choice, answer);
            Get(r, "default_manager") != Get(c, "default_manager") ==>
              choice == "1" && Get(r, "default_manager").Str? && ParseManager(Get(r, "default_manager").s).Some?
    ensures var r := MenuStep(c, choice, answer);
            Get(r, "max_search_results") != Get(c, "max_search_results") ==>
              choice == "5" && Get(r, "max_search_results").Int? && 1 <= Get(r, "max_search_results").i <= 50
    ensures var r := MenuStep(c, choice, answer);
            forall k :: !Editable(k) ==> (k in r <==> k in c) && (k in c ==> r[k] == c[k])
  {
    if choice == "2" || choice == "3" || choice == "4" || choice == "6" {
      ToggleChanges(c, choice, answer);
    }
  }

  /** The four toggles touch neither the manager nor the result count. */
  lemma ToggleChanges(c: Config, choice: string, answer: string)
    requires choice == "2" || choice == "3" || choice == "4" || choice == "6"
    ensures var r := MenuStep(c, choice, answer);
            && Get(r, "default_manager") == Get(c, "default_manager")
            && Get(r, "max_search_results") == Get(c, "max_search_results")
            && forall k :: !Editable(k) ==> (k in r <==> k in c) && (k in c ==> r[k] == c[k])
  {
  }

  /** The settings the menu can change. */
  predicate Editable(k: string) {
    k == "default_manager" || k == "auto_confirm" || k == "show_progress"
    || k == "backup_before_operations" || k == "max_search_results" || k == "colors_enabled"
  }

  /** `show_config_menu` fed the lines in `inputs`: it stops at entry `0`
      or when the input runs out, and the result is the settings as last
      saved. Whatever is typed, sane settings stay sane and the settings
      the menu does not offer keep their presence and value. */
  function RunMenu(c: Config, inputs: seq<string>): (r: Config)
    ensures Sane(c) ==> Sane(r)
    ensures forall k :: !Editable(k) ==> (k in r <==> k in c) && (k in c ==> r[k] == c[k])
    decreases |inputs|
  {
    if inputs == [] then c
    else
      var choice := Strip(inputs[0]);
      if choice == "0" then c
      else if Asks(choice) then
        if |inputs| < 2 then c
        else
          MenuStepSane(c, choice, inputs[1]);
          MenuStepChanges(c, choice, inputs[1]);
          RunMenu(MenuStep(c, choice, inputs[1]), inputs[2..])
      else
        MenuStepSane(c, choice, "");
        MenuStepChanges(c, choice, "");
        RunMenu(MenuStep(c, choice, ""), inputs[1..])
  }

  /** Settings as the menu would leave them: a supported default manager,
      a result count between 1 and 50, and proper booleans for the four
      switches. */
  predicate Sane(c: Config) {
    && "default_manager" in c && c["default_manager"].Str? && ParseManager(c["default_manager"].s).Some?
    && "max_search_results" in c && c["max_search_results"].Int?
    && 1 <= c["max_search_results"].i <= 50
    && "auto_confirm" in c && c["auto_confirm"].Bool?
    && "show_progress" in c && c["show_progress"].Bool?
    && "backup_before_operations" in c && c["backup_before_operations"].Bool?
    && "colors_enabled" in c && c["colors_enabled"].Bool?
  }

  lemma DefaultsSane()
    ensures Sane(Defaults())
  {
    assert ManagerName(Pacman) == "pacman";
  }

  /** A menu step keeps sane settings sane. */
  lemma MenuStepSane(c: Config, choice: string, answer: string)
    ensures Sane(c) ==> Sane(MenuStep(c, choice, answer))
  {
    var r := MenuStep(c, choice, answer);
    if !Sane(c) {
    } else if choice == "1" || choice == "5" {
      MenuStepChanges(c, choice, answer);
      SetSane(c, r);
    } else if choice == "2" || choice == "3" || choice == "4" || choice == "6" {
      ToggleSane(c, choice);
    } else {
      assert r == c;
    }
  }

  /** Entries 1 and 5 only ever store an accepted value. */
  lemma SetSane(c: Config, r: Config)
    requires Sane(c)
    requires forall k :: k != "default_manager" && k != "max_search_results" ==>
               (k in r <==> k in c) && (k in c ==> r[k] == c[k])
    requires Get(r, "default_manager") != Get(c, "default_manager") ==>
               Get(r, "default_manager").Str? && ParseManager(Get(r, "default_manager").s).Some?
    requires Get(r, "max_search_results") != Get(c, "max_search_results") ==>
               Get(r, "max_search_results").Int? && 1 <= Get(r, "max_search_results").i <= 50
    ensures Sane(r)
  {
    assert "auto_confirm" in r && "show_progress" in r;
  }

  /** The four switches stay proper booleans. */
  lemma ToggleSane(c: Config, choice: string)
    requires Sane(c)
    requires choice == "2" || choice == "3" || choice == "4" || choice == "6"
    ensures Sane(MenuStep(c, choice, ""))
  {
  }
}

=== FILE: wrappers.dfy ===
/** The optional value used wherever the Python code returns `None`. */
module Wrappers {

  datatype Option<+T> = None | Some(value: T)
}
